=== FILE: README.md ===
# Group calls, Passport authorization and wallet screens: a Dafny model

This project models four pieces of the Telegram iOS client as pure Dafny
functions and proves properties of them.

- **Group-call context** (`GroupCallContext.swift`), in three modules:
  - `BroadcastPart` requests audio broadcast parts. It snaps timestamps to a part boundary, resolves the data source once, maps fetch results to parts or to a rejoin, and delays the "not ready" answer when there is no source.
  - `AudioLevels` decodes the engine's flat audio-level arrays.
  - `CallActor` is the queue-confined `Impl`, modelled as a sequential actor. It holds the de-duplicating value promises (`Latest`) and the log of commands sent to the engine. Its step function `Step`, and so every run, applies one correction from "## Findings": engine payloads go through the corrected, registration-checked `OnJoinPayload` (the finding at line 342), not the source's `OnJoinPayloadAsWritten`. `RunPreservesConsistency` starts from a consistent state. The corrected `Init` (the finding at line 217) gives one; the as-written one does not.
- **Passport authorization** (`SecureIdAuthController.swift`):
  - `SecureIdUrl` builds the callback URL.
  - `SecureIdAuth` classifies request errors and runs the password-challenge state machine. That includes the progress indicator that `updateState` keeps in step with the state.
- **Wallet transaction screen** (`WalletTransactionInfoScreen.swift`), as `WalletTransaction`. From a completed or pending transaction it derives the counterparty address text, the comment, the direction and amount, the fee line and the send target.
- **Wallet receive screen** (`WalletReceiveScreen.swift`), as `WalletReceive`. It covers the two screen modes, the URL each one shares, the 32-character line breaking of invoice URLs, the screen content per mode, and the navigation-stack cleanup behind Done.

`Wrappers` (an `Option` type) and `Text` (join, split, decimal rendering)
are shared helpers.

The model takes several collaborators as function parameters and does not interpret them:
- the network fetch of a broadcast part;
- the decryption helpers;
- `walletInvoiceUrl`, `formatAddress` and `formatBalanceText`;
- UTF-8 decoding.

The clock reading (`now`), the data-source lookup result and server answers are plain inputs. Engine calls are recorded as `Command` values in the actor's log rather than performed.

Swift's `Int64` division truncates toward zero; `BroadcastPart.TruncDiv`
models it explicitly.

## Model

| member | source | states |
|---|---|---|
| BroadcastPart.TruncDivBounds | submodules/TelegramVoip/Sources/GroupCallContext.swift:65 | Truncating division lies between zero and the exact quotient: the remainder `a - q*b` has the sign of `a` and magnitude below `|b|` |
| BroadcastPart.SnapTimestamp | submodules/TelegramVoip/Sources/GroupCallContext.swift:61-66 | A nonzero requested timestamp is kept. Zero means "current part": the result is a multiple of the duration, at most `now`, and within one duration of `now` |
| BroadcastPart.PartFor | submodules/TelegramVoip/Sources/GroupCallContext.swift:102-119 | A fetch result becomes a part exactly when it is not `rejoinNeeded`. Data becomes `success` with the bytes; every other status carries an empty payload; the response timestamp is kept |
| BroadcastPart.PartForRoundTrip | submodules/TelegramVoip/Sources/GroupCallContext.swift:102-119 | The fetch status can be read back from the part it produced |
| BroadcastPart.Serve | submodules/TelegramVoip/Sources/GroupCallContext.swift:81-122 | Once the source is settled, exactly one of completion or rejoin fires, every completed part has the snapped timestamp, and no further lookup happens |
| BroadcastPart.RequestPart | submodules/TelegramVoip/Sources/GroupCallContext.swift:60-123 | One request yields exactly one completion or one rejoin, all stamped with the snapped timestamp. The source is looked up only when none is cached. A cached source is reused and left in place; a newly resolved one is cached |
| BroadcastPart.RejoinNeverCompletes | submodules/TelegramVoip/Sources/GroupCallContext.swift:116-118 | A `rejoinNeeded` answer fires the rejoin callback and no completion |
| BroadcastPart.FetchedPartDelivered | submodules/TelegramVoip/Sources/GroupCallContext.swift:102-122 | Any other answer is delivered as exactly the part `PartFor` gives |
| BroadcastPart.UnresolvedIsDelayedNotReady | submodules/TelegramVoip/Sources/GroupCallContext.swift:86-100 | With no data source, the request waits 2000 ms and then completes `notReady`, with an empty payload and the response timestamp equal to the part timestamp |
| BroadcastPart.SecondRequestReusesSource | submodules/TelegramVoip/Sources/GroupCallContext.swift:69-83 | After a request resolves a source, the next request performs no lookup |
| BroadcastPart.UnresolvedCurrentPartExample | submodules/TelegramVoip/Sources/GroupCallContext.swift:61-66 | A concrete snap: a 1000 ms part requested at `now = 12345678` gets the id 12345000 |
| AudioLevels.KeyFor | submodules/TelegramVoip/Sources/GroupCallContext.swift:320-326 | Id 0 is the local participant; every other id is a source |
| AudioLevels.KeyRoundTrip | submodules/TelegramVoip/Sources/GroupCallContext.swift:167-171 | The id is recovered from the key |
| AudioLevels.DecodeIndexed | submodules/TelegramVoip/Sources/GroupCallContext.swift:318-330 | The decoded batch has one sample per triple, and sample `i` is built from entries `3i`, `3i+1` and `3i+2` |
| AudioLevels.DecodeLevels | submodules/TelegramVoip/Sources/GroupCallContext.swift:318-330 | The `while` loop computes the indexed decoding, triple by triple |
| CallActor.Put | submodules/TelegramVoip/Sources/GroupCallContext.swift:215-217 | Setting a value makes it current. It is delivered only if it differs from the current one. Delivery history only grows, and "never the same value twice in a row" is preserved |
| CallActor.PutTwice | submodules/TelegramVoip/Sources/GroupCallContext.swift:215-217 | Setting the same value twice is the same as setting it once |
| CallActor.MappingsInjective | submodules/TelegramVoip/Sources/GroupCallContext.swift:236-245 | The connection-mode, video-content-type and quality mappings to the engine's enums are one-to-one |
| CallActor.MapChannels | submodules/TelegramVoip/Sources/GroupCallContext.swift:374-395 | Requested channels reach the engine in order, each mapped field by field |
| CallActor.MapChannelsInjective | submodules/TelegramVoip/Sources/GroupCallContext.swift:374-395 | Different channel lists reach the engine as different lists |
| CallActor.MapDescriptions | submodules/TelegramVoip/Sources/GroupCallContext.swift:271-285 | Channel descriptions are handed to the engine in order, with kind mapped to type and ssrc and description kept |
| CallActor.InitAsWritten | submodules/TelegramVoip/Sources/GroupCallContext.swift:215-305 | As written, the published noise-suppression value starts `true` while the engine is created with the caller's flag |
| CallActor.InitAsWrittenDisagrees | submodules/TelegramVoip/Sources/GroupCallContext.swift:215-305 | Created with noise suppression off, the as-written state is inconsistent with the engine |
| CallActor.Init | submodules/TelegramVoip/Sources/GroupCallContext.swift:215-305 | The corrected start state is consistent with the engine. The engine gets exactly two commands: it is created with the given devices, capturer flag, mapped content type and noise-suppression flag, and a bitrate of 32 kbit/s when none is given; then a join payload is requested. The call starts muted and disconnected, with no payload, channels or levels |
| CallActor.Tell | submodules/TelegramVoip/Sources/GroupCallContext.swift:350-352 | A pass-through operation forwards one command and preserves consistency |
| CallActor.AddSsrcs | submodules/TelegramVoip/Sources/GroupCallContext.swift:354-355 | `addSsrcs` changes nothing |
| CallActor.RemoveSsrcs | submodules/TelegramVoip/Sources/GroupCallContext.swift:357-364 | An empty list is a no-op; any other list is forwarded unchanged as one command |
| CallActor.SetRequestedVideoChannels | submodules/TelegramVoip/Sources/GroupCallContext.swift:374-395 | The engine is told only when the list differs from the current one. The new list becomes current and nothing else changes |
| CallActor.RequestedVideoChannelsIdempotent | submodules/TelegramVoip/Sources/GroupCallContext.swift:374-376 | Requesting the same list twice costs at most one engine command |
| CallActor.SetConnectionMode | submodules/TelegramVoip/Sources/GroupCallContext.swift:401-426 | The mapped mode always reaches the engine. Leaving `rtc` also resets the join payload to "never", asks for a new one and opens a new payload registration; nothing else changes |
| CallActor.NoStalePayloadAfterModeSwitch | submodules/TelegramVoip/Sources/GroupCallContext.swift:412-424 | Corrected (the source does not promise this; see `StalePayloadLands`): after leaving `rtc` the stream is reset and a new registration is open. Any other operation but a mode switch brings a payload back exactly when it is an engine payload for the new registration |
| CallActor.NoStalePayloadInRun | submodules/TelegramVoip/Sources/GroupCallContext.swift:412-424 | Corrected (the source does not promise this; see `StalePayloadLands`): from a reset stream, a run of operations without a mode switch, whose engine payloads were all produced for earlier registrations, leaves the stream reset and the registration unchanged |
| CallActor.StalePayloadLands | submodules/TelegramVoip/Sources/GroupCallContext.swift:412-424 | As written, an engine payload arriving after the reset replaces it, whichever registration it was produced for |
| CallActor.SetIsMuted | submodules/TelegramVoip/Sources/GroupCallContext.swift:428-431 | The published mute value and the engine both take the new value; nothing else changes |
| CallActor.SetIsNoiseSuppressionEnabled | submodules/TelegramVoip/Sources/GroupCallContext.swift:433-436 | The same for noise suppression |
| CallActor.OnNetworkStateUpdated | submodules/TelegramVoip/Sources/GroupCallContext.swift:307-314 | The published network state takes the engine's value; nothing else changes |
| CallActor.OnAudioLevelsUpdated | submodules/TelegramVoip/Sources/GroupCallContext.swift:317-334 | Every decoded batch is delivered, repeated or not |
| CallActor.OnJoinPayloadAsWritten | submodules/TelegramVoip/Sources/GroupCallContext.swift:337-344 | As written, an engine payload replaces the join-payload stream and nothing else |
| CallActor.OnJoinPayload | submodules/TelegramVoip/Sources/GroupCallContext.swift:337-344 | Corrected: a payload produced for the current registration replaces the stream; one produced before the latest switch leaves the state unchanged |
| CallActor.StepExtendsLog | submodules/TelegramVoip/Sources/GroupCallContext.swift:350-468 | Each operation appends at most two engine commands and never rewrites earlier ones |
| CallActor.RunPreservesConsistency | submodules/TelegramVoip/Sources/GroupCallContext.swift:350-468 | Over any sequence of operations and callbacks, the published mute, noise-suppression and channel values agree with the last values the engine was given |
| SecureIdUrl.RawValueRoundTrip | TelegramUI/SecureIdAuthController.swift:8-12 | The raw values are distinct and parse back to their result |
| SecureIdUrl.Query | TelegramUI/SecureIdAuthController.swift:15-21 | The query is empty exactly when there are no parameters; otherwise it starts with `?` |
| SecureIdUrl.PairsRoundTrip | TelegramUI/SecureIdAuthController.swift:15-17 | `key=value` pieces parse back to the parameters when keys and values contain neither `=` nor `&` |
| SecureIdUrl.QueryRoundTrip | TelegramUI/SecureIdAuthController.swift:15-21 | The `?`-prefixed, `&`-joined query parses back to the parameters, in order |
| SecureIdUrl.OutcomeRoundTrip | TelegramUI/SecureIdAuthController.swift:15-27 | `<result><query>` parses back to the result and the parameters |
| SecureIdUrl.CallbackUrl | TelegramUI/SecureIdAuthController.swift:14-30 | A `tgbot` base is replaced by `tgbot<peer id>://passport/`. Any other base is kept, followed by `&` when it already has a `?` and `?` otherwise, then `tg_passport=`. With no parameters the URL ends in the raw result |
| SecureIdUrl.CallbackUrlRoundTrip | TelegramUI/SecureIdAuthController.swift:14-30 | The result and the parameters can be read back from the callback URL |
| SecureIdUrl.BotSchemeIgnoresBase | TelegramUI/SecureIdAuthController.swift:24-25 | For a `tgbot` base, the rest of the base URL does not matter |
| SecureIdUrl.ErrorCallbackCarriesCode | TelegramUI/SecureIdAuthController.swift:187-191 | The error callback carries `error=<code>` back to the bot |
| SecureIdAuth.Classify | TelegramUI/SecureIdAuthController.swift:160-180 | A form server error is passed back exactly when its code is one of the six listed. An update is required exactly for a version-outdated form or values error. Never both |
| SecureIdAuth.HandleError | TelegramUI/SecureIdAuthController.swift:158-197 | An update-required error gets the update alert. Otherwise an error alert is shown exactly when a callback URL and peer are known. Its OK button opens the error callback exactly when there is a code to pass back, and that URL reads back as `error` with that code |
| SecureIdAuth.NewController | TelegramUI/SecureIdAuthController.swift:87-93 | A new controller has no verification state, no progress shown and no node loaded |
| SecureIdAuth.LoadDisplayNode | TelegramUI/SecureIdAuthController.swift:293-352 | Loading the node marks it loaded and hands it the current state once; the state and the indicator are untouched |
| SecureIdAuth.UpdateState | TelegramUI/SecureIdAuthController.swift:360-392 | An unchanged state is dropped. A changed one is stored and handed to the node once, only if the node is loaded, and the progress indicator stays in step with "checking or removing values" |
| SecureIdAuth.ChallengeLoaded | TelegramUI/SecureIdAuthController.swift:111-157 | With a password and a stored one, access is attempted silently and the state is untouched. Otherwise a password gives an idle challenge with the hint (empty if none) and the recovery flag, and no password gives "no challenge" with the unconfirmed-email pattern. Nothing else in the state changes |
| SecureIdAuth.AutoAccessSucceeded | TelegramUI/SecureIdAuthController.swift:116-134 | Silent access verifies only while no verification state is set, as `Verify` describes |
| SecureIdAuth.AutoAccessFailed | TelegramUI/SecureIdAuthController.swift:135-145 | A failed silent access installs the idle challenge with the hint and recovery flag only while no verification state is set; nothing else changes |
| SecureIdAuth.Verify | TelegramUI/SecureIdAuthController.swift:122-134 | Verification records the context, keeps the email only when non-empty, and keeps the mode and the removal flag. The encrypted payload is kept, and the decrypted one is its decryption under the new context, or none when nothing is held |
| SecureIdAuth.CheckPassword | TelegramUI/SecureIdAuthController.swift:408-419 | A check starts only from an idle or invalid challenge. The challenge moves to `checking` with hint and recovery flag kept; any other state is left alone |
| SecureIdAuth.CheckPasswordSucceeded | TelegramUI/SecureIdAuthController.swift:421-440 | A success is applied only while the check is still running, and verifies as `Verify` describes |
| SecureIdAuth.TextFor | TelegramUI/SecureIdAuthController.swift:445-461 | Invalid password and flood errors get their own messages; everything else gets the unknown-error message |
| SecureIdAuth.CheckPasswordFailed | TelegramUI/SecureIdAuthController.swift:441-472 | The alert is always shown. A running check turns `invalid`, keeping hint and recovery flag; any other state is left alone |
| SecureIdAuth.RejectedPasswordCanBeRetried | TelegramUI/SecureIdAuthController.swift:408-472 | After a started check fails, the challenge is `invalid` with the same hint, and a new check can start |
| SecureIdAuth.OpenPasswordHelp | TelegramUI/SecureIdAuthController.swift:476-520 | Help is ignored unless there is an idle or invalid challenge. With a recovery email it offers a reset; otherwise it reports recovery unavailable |
| SecureIdAuth.SetupPassword | TelegramUI/SecureIdAuthController.swift:522-531 | Setup opens only in the "no challenge" state: pending verification when an email pattern is known, fresh setup otherwise |
| SecureIdAuth.RecoveryCompleted | TelegramUI/SecureIdAuthController.swift:500-512 | After a reset the state is "no challenge" without a pattern, nothing else changes, and setup opens fresh |
| SecureIdAuth.EmailConfirmationUpdated | TelegramUI/SecureIdAuthController.swift:536-545 | A new email pattern is applied only in the "no challenge" state; nothing else changes |
| SecureIdAuth.PasswordCreated | TelegramUI/SecureIdAuthController.swift:547-560 | A created password installs its challenge and immediately starts checking it; nothing else changes |
| WalletTransaction.DisplayedAmount | submodules/WalletUI/Sources/WalletTransactionInfoScreen.swift:314-358 | The amount shown is never negative, and is the transferred value or its negation |
| WalletTransaction.AmountAndDirectionRecoverValue | submodules/WalletUI/Sources/WalletTransactionInfoScreen.swift:314-358 | Direction (incoming exactly when positive) and amount together give back the transferred value |
| WalletTransaction.PendingIsOutgoing | submodules/WalletUI/Sources/WalletTransactionInfoScreen.swift:320-324 | A pending transaction counts as its negated value, so it shows as incoming only for a negative value |
| WalletTransaction.ExtractAddress | submodules/WalletUI/Sources/WalletTransactionInfoScreen.swift:71-96 | Outgoing: the out-message destinations in order, or "none" when there are none. Incoming: the in-message source, or "unknown". Pending: its address |
| WalletTransaction.StringForAddress | submodules/WalletUI/Sources/WalletTransactionInfoScreen.swift:60-69 | The placeholders for "none" and "unknown"; a single address is shown formatted on its own; a list is its formatted addresses as lines with a blank line between neighbours |
| WalletTransaction.AddressTextRoundTrip | submodules/WalletUI/Sources/WalletTransactionInfoScreen.swift:60-69 | When no formatted address spans lines, the shown text splits into the formatted addresses with one empty line between neighbours, so every other line is one address, in order |
| WalletTransaction.SingleAddress | submodules/WalletUI/Sources/WalletTransactionInfoScreen.swift:386-390 | A send target exists exactly when the address is a list of one, and it is that address |
| WalletTransaction.SendTarget | submodules/WalletUI/Sources/WalletTransactionInfoScreen.swift:71-96 | Pending transactions offer their address. Incoming ones offer the in-message source if any. Outgoing ones offer a target exactly when there is one out-message, and it is that message's destination |
| WalletTransaction.OutgoingTextStep | submodules/WalletUI/Sources/WalletTransactionInfoScreen.swift:103-109 | One loop step of the reference comment text: a blank-line separator goes in only after non-empty text |
| WalletTransaction.DescribeOutgoing | submodules/WalletUI/Sources/WalletTransactionInfoScreen.swift:100-110 | The loop drops leading empty texts and joins the rest with blank lines. The result is empty exactly when every text is empty |
| WalletTransaction.OutgoingTextEmpty | submodules/WalletUI/Sources/WalletTransactionInfoScreen.swift:103-109 | The joined comment is empty exactly when every message text is empty |
| WalletTransaction.ExtractDescription | submodules/WalletUI/Sources/WalletTransactionInfoScreen.swift:98-119 | Outgoing: the joined texts. Incoming: the in-message text, or empty. Pending: the comment decoded as UTF-8, or empty when undecodable |
| WalletTransaction.FeesString | submodules/WalletUI/Sources/WalletTransactionInfoScreen.swift:363-378 | The fee text is empty exactly for a pending transaction or when both fees are zero |
| WalletTransaction.FeesStringIsFeeLines | submodules/WalletUI/Sources/WalletTransactionInfoScreen.swift:363-378 | The fee text is its present lines (storage, then transaction, each only for a nonzero fee), one per line, followed by `(?)` when there is any |
| WalletReceive.Address | submodules/WalletUI/Sources/WalletReceiveScreen.swift:32-37 | Both modes return their stored address |
| WalletReceive.UrlForMode | submodules/WalletUI/Sources/WalletReceiveScreen.swift:149-156 | Invoice mode passes address, amount and comment unchanged |
| WalletReceive.ReceiveIsBareInvoice | submodules/WalletUI/Sources/WalletReceiveScreen.swift:149-156 | A receive-mode URL equals the invoice URL for the same address with neither amount nor comment |
| WalletReceive.SliceIsChunked | submodules/WalletUI/Sources/WalletReceiveScreen.swift:250 | Inserting a newline before every positive index divisible by 32 is the same as joining the URL's 32-character chunks with newlines |
| WalletReceive.ChunksCount | submodules/WalletUI/Sources/WalletReceiveScreen.swift:250 | A URL of length n > 0 is shown on (n-1)/32 + 1 lines |
| WalletReceive.ChunksFull | submodules/WalletUI/Sources/WalletReceiveScreen.swift:250 | Every line but the last has exactly 32 characters |
| WalletReceive.ChunksLast | submodules/WalletUI/Sources/WalletReceiveScreen.swift:250 | The last line of a non-empty URL has between 1 and 32 characters |
| WalletReceive.SliceLength | submodules/WalletUI/Sources/WalletReceiveScreen.swift:250 | A URL of length n > 0 gains (n-1)/32 characters; an empty URL stays empty |
| WalletReceive.SliceRoundTrip | submodules/WalletUI/Sources/WalletReceiveScreen.swift:250 | For a URL without newlines, removing the newlines gives back the URL, and splitting at newlines gives back its 32-character lines |
| WalletReceive.SliceExample | submodules/WalletUI/Sources/WalletReceiveScreen.swift:250 | A 40-character URL shows as a line of 32 and a line of 8 |
| WalletReceive.ScreenContent | submodules/WalletUI/Sources/WalletReceiveScreen.swift:240-258 | Only receive mode offers "create invoice", and only receive mode is presented as a flat modal (set in the initializer, lines 65-68). Receive mode shows the formatted URL plus a space. Its button is titled Share Address, and it shares the receive URL. Invoice mode shows the sliced URL and shares the invoice URL. Both share the mode's URL |
| WalletReceive.InvoiceTextIsSharedUrl | submodules/WalletUI/Sources/WalletReceiveScreen.swift:240-256 | In invoice mode, the displayed text without its line breaks is exactly the URL that is shared |
| WalletReceive.CreateInvoiceAddress | submodules/WalletUI/Sources/WalletReceiveScreen.swift:84-92 | The create-invoice action exists only in receive mode and opens the invoice screen for the mode's address |
| WalletReceive.DonePressed | submodules/WalletUI/Sources/WalletReceiveScreen.swift:132-146 | No receive or create-invoice screen remains. The result is an order-preserving subsequence of the stack, and every other screen keeps its multiplicity |
| WalletReceive.DonePressedKeepsClean | submodules/WalletUI/Sources/WalletReceiveScreen.swift:132-146 | A stack without those screens is left unchanged |
| WalletReceive.DonePressedIdempotent | submodules/WalletUI/Sources/WalletReceiveScreen.swift:132-146 | Pressing Done twice is the same as pressing it once |

## Left out

- Queues and threading: `Queue`, `QueueLocalObject`, the `queue.async` hops and `MetaDisposable` cancellation timing are left out. The call context is modelled as one sequential actor, and each engine callback is an ordinary step.
- The group-call engine (`GroupCallThreadLocalContext`) is not modelled: its inputs are recorded as `Command`s in a log, and its callbacks are inputs.
- The broadcast data-source lookup, the part fetch, the clock and the 2 s delay are external. The lookup result and `now` are inputs, the fetch is a function parameter, and the delay is an event in the outcome.
- `BroadcastPart.RequestPart`: the data-source lookup and the part fetch are signals. Each is taken to emit exactly one value; a signal that emits several values, or completes without one, is not modelled.
- `BroadcastPart.Serve`: the fetch is taken to emit exactly one value, for the same reason.
- The debug dump of broadcast parts (`#if DEBUG`) is not modelled: it does not affect the result.
- `BroadcastPart.SnapTimestamp`: the source traps when asked for the current part with a zero duration. The model requires a nonzero duration in that case instead of modelling the crash. The conversion of the floating-point clock to whole milliseconds is taken as done by the caller.
- `CallActor.OnAudioLevelsUpdated`: the source indexes past the end of an array whose length is not a multiple of three. The model requires such a length instead of modelling the crash.
- `CallActor.OnJoinPayload`: the engine's callbacks carry no registration in the source. The model tags each payload with the registration its callback was registered under. That is the registration current at `emitJoinPayload`, `requestVideo` or `disableVideo`.
- `CallActor.SetIsMuted`: the source publishes the new value before it tells the engine. Both happen inside one actor step, and the model keeps published cells and engine commands in separate fields, so their order within the step is not stated.
- `CallActor.SetIsNoiseSuppressionEnabled`: the same holds as for `SetIsMuted`.
- SwiftSignalKit is not part of this model. `ValuePromise(ignoreRepeated: true)` is taken to drop a value equal to the current one and deliver any other. Its observers are modelled as one observer attached at creation; the audio-level pipe and the join-payload promise deliver every value.
- `makeIncomingVideoView` is UIKit and Objective-C bridging, so it is not modelled.
- The public `OngoingGroupCallContext` wrapper only forwards calls to `Impl` on its queue, so it is not modelled.
- `GroupVideoNode.swift` is not part of this model: it is view layout and animation code.
- `TelegramEngine.swift` is not part of this model: it only wraps lazy properties.
- Passport signal plumbing is not modelled: the `postbox` transactions, alert presentation, navigation items, `openExternalUrl` and dismissal. Their effects appear only as results (an `ErrorAlert`, a `HelpAction`, a "request started" flag).
- `accessSecureId`, `decryptedSecureIdForm` and `decryptedAllSecureIdValues` are foreign calls. The decryption helpers are parameters, and access results are inputs.
- Storing the password after a successful check, form submission (`grantAccess`), value deletion (`deleteAll`) and the info button are not modelled. Drawing is counted only as the node being handed a state; what it draws is not modelled. The removal flag is kept only as an input to the progress rule.
- `SecureIdUrl.CallbackUrl`: Swift dictionaries have no fixed iteration order. The parameters are a sequence in whatever order the dictionary yields. Nothing is escaped, so the round trips hold only for keys and values without `=` or `&`.
- `SecureIdUrl.CallbackUrl`: Swift's `hasPrefix("tgbot")` and `range(of: "?")` compare Characters (grapheme clusters); the model compares `char`s. They agree when no combining mark follows `tgbot` or a `?`, as in any percent-escaped URL.
- `WalletReceive.Slice`: Swift enumerates the URL by Character, and the model by `char`. Each 32-`char` line is a 32-Character line only when every Character is one `char`, as in a percent-escaped invoice URL. A URL with combining marks would be broken at other places.
- `WalletReceive.SliceIsChunked`: the chunks are 32 `char`s long, which are the source's 32-Character lines only under the one-`char`-per-Character assumption stated for `WalletReceive.Slice`.
- Date formatting (`stringForFullDate`) is not modelled: it depends on `localtime_r` and locale tables.
- Localized strings, `formatAddress`, `formatBalanceText`, `walletInvoiceUrl`, QR-code generation and sharing are outside the model. They are parameters or fixed enum values.
- `WalletTransaction.DisplayedAmount`: Swift traps when negating the minimum `Int64`. Integers are unbounded here, so that overflow is not modelled.
- Layout and view code of both wallet screens (fonts, colours, frames, the idle timer) is not modelled.
- Unreachable code: the trailing `return .none` in `extractAddress` has no model, because every earlier branch returns.

## Findings

| source | as written | input that shows it | evidently intended | confidence | as-written member | corrected member |
|---|---|---|---|---|---|---|
| submodules/TelegramVoip/Sources/GroupCallContext.swift:217 | The published `isNoiseSuppressionEnabled` promise starts at `true`, whatever `enableNoiseSuppression` the context is created with. The engine is created with the caller's flag | create the context with `enableNoiseSuppression: false`: observers read `true` while the engine has it off | the published value starts at `enableNoiseSuppression`, as every later `setIsNoiseSuppressionEnabled` keeps both in step | low to medium, not executed | CallActor.InitAsWrittenDisagrees | CallActor.Init |
| submodules/TelegramVoip/Sources/GroupCallContext.swift:342 | The payload callback queues `joinPayload.set(.single(...))` on the actor without checking whether the connection mode changed since it was registered | in `rtc` mode the engine reports a payload while a `setConnectionMode(.broadcast)` is already queued on the actor. The mode switch resets the stream to `.never()`, and then the queued callback publishes the payload produced for `rtc` | a payload produced before the latest non-`rtc` switch is dropped, so only a payload for the new mode follows the reset | low, not executed | CallActor.StalePayloadLands | CallActor.NoStalePayloadAfterModeSwitch |

=== FILE: audio_levels.dfy ===
/**
 * Decoding of the engine's audio-level reports. The engine hands over a flat
 * array of numbers in groups of three — source id, level, speaking flag — and
 * the call context turns each group into one sample keyed by participant.
 */
module AudioLevels {

  type UInt32 = x: int | 0 <= x < 0x1_0000_0000

  /** One `NSNumber` of the flat array, read through the three accessors the decoder uses. */
  datatype Number = Number(uint32Value: UInt32, floatValue: real, boolValue: bool)

  /** `AudioLevelKey`: source id 0 stands for the local participant. */
  datatype AudioLevelKey = Local | Source(ssrc: UInt32)

  datatype Sample = Sample(key: AudioLevelKey, level: real, isSpeaking: bool)

  function KeyFor(id: UInt32): (k: AudioLevelKey)
    ensures k.Local? <==> id == 0
  {
    if id == 0 then Local else Source(id)
  }

  /** The source id a key stands for. */
  function IdOf(k: AudioLevelKey): UInt32 {
    match k
    case Local => 0
    case Source(ssrc) => ssrc
  }

  /** Keys lose nothing: every source id is recovered from its key. */
  lemma KeyRoundTrip(id: UInt32)
    ensures IdOf(KeyFor(id)) == id
  {
  }

  /** The sample decoded from the group of three starting at `levels[3 * i]`. */
  function SampleAt(levels: seq<Number>, i: nat): Sample
    requires 3 * i + 2 < |levels|
  {
    Sample(KeyFor(levels[3 * i].uint32Value), levels[3 * i + 1].floatValue, levels[3 * i + 2].boolValue)
  }

  /** Reference decoding, one group of three at a time from the front. */
  function Decode(levels: seq<Number>): (samples: seq<Sample>)
    requires |levels| % 3 == 0
    decreases |levels|
  {
    if |levels| == 0 then []
    else [Sample(KeyFor(levels[0].uint32Value), levels[1].floatValue, levels[2].boolValue)] + Decode(levels[3..])
  }

  /** The reference decoding yields one sample per group, the i-th from the i-th group. */
  lemma {:induction false} DecodeIndexed(levels: seq<Number>)
    requires |levels| % 3 == 0
    ensures 3 * |Decode(levels)| == |levels|
    ensures forall i :: 0 <= i < |Decode(levels)| ==> Decode(levels)[i] == SampleAt(levels, i)
    decreases |levels|
  {
    if |levels| > 0 {
      var rest := levels[3..];
      DecodeIndexed(rest);
      forall i | 0 <= i < |Decode(levels)|
        ensures Decode(levels)[i] == SampleAt(levels, i)
      {
        if i > 0 {
          assert Decode(levels)[i] == Decode(rest)[i - 1];
          assert SampleAt(rest, i - 1) == SampleAt(levels, i) by {
            assert rest[3 * (i - 1)] == levels[3 * i];
            assert rest[3 * (i - 1) + 1] == levels[3 * i + 1];
            assert rest[3 * (i - 1) + 2] == levels[3 * i + 2];
          }
        }
      }
    }
  }

  /**
   * `audioLevelsUpdatedImpl`'s loop: walk the array three entries at a time.
   * The source reads `levels[i + 1]` and `levels[i + 2]` unchecked, so an
   * array whose length is not a multiple of three traps there.
   */
  method DecodeLevels(levels: seq<Number>) returns (mapped: seq<Sample>)
    requires |levels| % 3 == 0
    ensures 3 * |mapped| == |levels|
    ensures forall j :: 0 <= j < |mapped| ==> mapped[j] == SampleAt(levels, j)
    ensures mapped == Decode(levels)
  {
    mapped := [];
    var i := 0;
    while i < |levels|
      invariant 0 <= i <= |levels| && i % 3 == 0
      invariant 3 * |mapped| == i
      invariant forall j :: 0 <= j < |mapped| ==> mapped[j] == SampleAt(levels, j)
    {
      var id := levels[i].uint32Value;
      var key := if id == 0 then Local else Source(id);
      mapped := mapped + [Sample(key, levels[i + 1].floatValue, levels[i + 2].boolValue)];
      i := i + 3;
    }
    DecodeIndexed(levels);
  }
}

=== FILE: broadcast_part.dfy ===
/**
 * The broadcast part source of a group call: one request for a fixed-duration
 * audio segment, from timestamp snapping through data-source resolution to the
 * part (or rejoin signal) handed back to the engine.
 *
 * The network calls (`getAudioBroadcastDataSource`, `getAudioBroadcastPart`)
 * and the wall clock are parameters: the resolved data source, the fetch
 * result as a function of (data source, timestamp, duration), and `nowMs`.
 */
module BroadcastPart {
  import opened Wrappers

  type Byte = b: int | 0 <= b < 256

  /** Delay before a synthetic `notReady` part when no data source could be resolved. */
  const UnresolvedDelayMs: int := 2000

  /** Handle returned by the data-source resolution (credentials and location of the stream). */
  datatype DataSource = DataSource(id: nat)

  /** Status of a part handed to the engine. */
  datatype PartStatus = Success | NotReady | ResyncNeeded

  /** `OngoingGroupCallBroadcastPart`. */
  datatype Part = Part(timestampMs: int, responseTimestamp: real, status: PartStatus, payload: seq<Byte>)

  /** Status of a `GetAudioBroadcastPartResult` as returned by the network layer. */
  datatype FetchStatus = Data(bytes: seq<Byte>) | FetchNotReady | FetchResyncNeeded | FetchRejoinNeeded

  datatype FetchResult = FetchResult(status: FetchStatus, responseTimestamp: real)

  /** The mutable part of `NetworkBroadcastPartSource`: the memoised data source. */
  datatype SourceState = SourceState(callId: int, accessHash: int, cached: Option<DataSource>)

  /** What one request does, in order, as seen from outside. */
  datatype Event =
    | ResolveDataSource(callId: int, accessHash: int)
    | FetchPart(source: DataSource, timestampMs: int, durationMs: int)
    | DelayMs(ms: int)
    | Completion(part: Part)
    | Rejoin

  datatype Outcome = Outcome(source: SourceState, events: seq<Event>)

  function Abs(x: int): nat { if x < 0 then -x else x }

  lemma MulNeg(x: int, y: int)
    ensures x * -y == -(x * y)
  {
  }

  lemma MulMonotone(x: int, y: nat)
    requires x >= 1
    ensures x * y >= y
  {
  }

  lemma NatDivBounds(m: nat, c: nat)
    requires c > 0
    ensures 0 <= (m / c) * c <= m && m - (m / c) * c < c
  {
  }

  /** Swift's `Int64` division, which truncates toward zero (Dafny's `/` is Euclidean). */
  function TruncDiv(a: int, b: int): int
    requires b != 0
  {
    var n := Abs(a) / Abs(b);
    if (a >= 0) == (b > 0) then n else -n
  }

  /** The truncated quotient times the divisor lies between zero and the dividend, less than one divisor away. */
  lemma TruncDivBounds(a: int, b: int)
    requires b != 0
    ensures var q := TruncDiv(a, b);
      && (a >= 0 ==> 0 <= q * b <= a && a - q * b < Abs(b))
      && (a < 0 ==> a <= q * b <= 0 && q * b - a < Abs(b))
  {
    var m: int := Abs(a);
    var c: int := Abs(b);
    var n := m / c;
    NatDivBounds(m, c);
    var p := n * c;
    var q := TruncDiv(a, b);
    if a >= 0 && b > 0 {
      assert q == n && b == c && a == m;
    } else if a >= 0 {
      assert q == -n && b == -c && a == m;
      MulNeg(-n, c);
      MulNeg(n, c);
      assert q * b == p;
    } else if b > 0 {
      assert q == -n && b == c && a == -m;
      assert q * b == -n * c;
      MulNeg(c, n);
      assert q * b == -p;
    } else {
      assert q == n && b == -c && a == -m;
      MulNeg(n, c);
      assert q * b == -p;
    }
  }

  lemma MultipleMod(q: int, d: int)
    requires d != 0
    ensures (q * d) % d == 0
  {
    var r := (q * d) % d;
    var k := (q * d) / d;
    assert q * d == k * d + r;
    assert (q - k) * d == r;
    if q - k >= 1 {
      if d > 0 { MulMonotone(q - k, d); } else { MulMonotone(q - k, -d); MulNeg(q - k, d); }
    } else if q - k <= -1 {
      if d > 0 { MulMonotone(k - q, d); MulNeg(k - q, -d); } else { MulMonotone(k - q, -d); }
    }
  }

  /**
   * The timestamp a request is served for: a nonzero request is kept, a zero
   * request is snapped onto the segment grid toward zero from the current
   * time. Division by a zero duration traps in the source, hence the
   * precondition.
   */
  function SnapTimestamp(requestedMs: int, durationMs: int, nowMs: int): (ts: int)
    requires requestedMs == 0 ==> durationMs != 0
    ensures requestedMs != 0 ==> ts == requestedMs
    ensures requestedMs == 0 ==> ts % durationMs == 0
    ensures requestedMs == 0 && nowMs >= 0 ==> 0 <= ts <= nowMs && nowMs - Abs(durationMs) < ts
  {
    if requestedMs != 0 then requestedMs
    else
      var q := TruncDiv(nowMs, durationMs);
      TruncDivBounds(nowMs, durationMs);
      MultipleMod(q, durationMs);
      q * durationMs
  }

  /** The part delivered for a fetch result; `None` for `rejoinNeeded`, which yields no part. */
  function PartFor(ts: int, result: FetchResult): (p: Option<Part>)
    ensures p.None? <==> result.status.FetchRejoinNeeded?
    ensures p.Some? ==> p.value.timestampMs == ts && p.value.responseTimestamp == result.responseTimestamp
    ensures p.Some? ==> (p.value.status == Success <==> result.status.Data?)
    ensures p.Some? && p.value.status != Success ==> p.value.payload == []
  {
    match result.status
    case Data(bytes) => Some(Part(ts, result.responseTimestamp, Success, bytes))
    case FetchNotReady => Some(Part(ts, result.responseTimestamp, NotReady, []))
    case FetchResyncNeeded => Some(Part(ts, result.responseTimestamp, ResyncNeeded, []))
    case FetchRejoinNeeded => None
  }

  /** Reads a part back as the fetch status it came from. */
  function StatusOf(p: Part): FetchStatus {
    match p.status
    case Success => Data(p.payload)
    case NotReady => FetchNotReady
    case ResyncNeeded => FetchResyncNeeded
  }

  /** No information is lost between a fetch result and its part: the status is recoverable. */
  lemma PartForRoundTrip(ts: int, result: FetchResult)
    requires !result.status.FetchRejoinNeeded?
    ensures PartFor(ts, result).Some?
    ensures StatusOf(PartFor(ts, result).value) == result.status
  {
  }

  /** The parts delivered through the normal completion path. */
  function Completions(events: seq<Event>): seq<Part>
  {
    if |events| == 0 then []
    else (if events[0].Completion? then [events[0].part] else []) + Completions(events[1..])
  }

  /** How many times the rejoin callback fires. */
  function RejoinCount(events: seq<Event>): nat {
    if |events| == 0 then 0
    else (if events[0].Rejoin? then 1 else 0) + RejoinCount(events[1..])
  }

  /** How many times the data source is resolved over the network. */
  function ResolveCount(events: seq<Event>): nat {
    if |events| == 0 then 0
    else (if events[0].ResolveDataSource? then 1 else 0) + ResolveCount(events[1..])
  }

  lemma {:induction false} CompletionsAppend(a: seq<Event>, b: seq<Event>)
    ensures Completions(a + b) == Completions(a) + Completions(b)
    decreases |a|
  {
    if |a| == 0 {
      assert a + b == b;
    } else {
      var head := if a[0].Completion? then [a[0].part] else [];
      calc {
        Completions(a + b);
        == { assert (a + b)[0] == a[0]; assert (a + b)[1..] == a[1..] + b; }
        head + Completions(a[1..] + b);
        == { CompletionsAppend(a[1..], b); }
        head + (Completions(a[1..]) + Completions(b));
        ==
        (head + Completions(a[1..])) + Completions(b);
      }
    }
  }

  lemma {:induction false} RejoinCountAppend(a: seq<Event>, b: seq<Event>)
    ensures RejoinCount(a + b) == RejoinCount(a) + RejoinCount(b)
    decreases |a|
  {
    if |a| == 0 {
      assert a + b == b;
    } else {
      assert (a + b)[1..] == a[1..] + b;
      RejoinCountAppend(a[1..], b);
    }
  }

  lemma {:induction false} ResolveCountAppend(a: seq<Event>, b: seq<Event>)
    ensures ResolveCount(a + b) == ResolveCount(a) + ResolveCount(b)
    decreases |a|
  {
    if |a| == 0 {
      assert a + b == b;
    } else {
      assert (a + b)[1..] == a[1..] + b;
      ResolveCountAppend(a[1..], b);
    }
  }

  lemma CountsAppend(a: seq<Event>, b: seq<Event>)
    ensures Completions(a + b) == Completions(a) + Completions(b)
    ensures RejoinCount(a + b) == RejoinCount(a) + RejoinCount(b)
    ensures ResolveCount(a + b) == ResolveCount(a) + ResolveCount(b)
  {
    CompletionsAppend(a, b);
    RejoinCountAppend(a, b);
    ResolveCountAppend(a, b);
  }

  /** Every part in `parts` is stamped with `ts`. */
  predicate AllStamped(parts: seq<Part>, ts: int) {
    forall i :: 0 <= i < |parts| ==> parts[i].timestampMs == ts
  }

  /** What happens once the data source is known (or known to be missing): exactly one delivery. */
  function Serve(source: Option<DataSource>, ts: int, durationMs: int,
                 fetch: (DataSource, int, int) -> FetchResult): (events: seq<Event>)
    ensures AllStamped(Completions(events), ts)
    ensures |Completions(events)| + RejoinCount(events) == 1
    ensures ResolveCount(events) == 0
  {
    match source
    case None =>
      var delivery := [Completion(Part(ts, ts as real, NotReady, []))];
      CountsAppend([DelayMs(UnresolvedDelayMs)], delivery);
      [DelayMs(UnresolvedDelayMs)] + delivery
    case Some(ds) =>
      var delivery := match PartFor(ts, fetch(ds, ts, durationMs))
        case Some(p) => [Completion(p)]
        case None => [Rejoin];
      CountsAppend([FetchPart(ds, ts, durationMs)], delivery);
      [FetchPart(ds, ts, durationMs)] + delivery
  }

  /**
   * `requestPart`: snap the timestamp, resolve the data source unless it is
   * cached, fetch the part and hand it to the engine, or fire the rejoin
   * callback. `resolved` is what the resolution yields if it is needed;
   * `fetch` is the network's answer for a data source, timestamp and duration.
   */
  function RequestPart(state: SourceState, requestedMs: int, durationMs: int, nowMs: int,
                       resolved: Option<DataSource>, fetch: (DataSource, int, int) -> FetchResult): (o: Outcome)
    requires requestedMs == 0 ==> durationMs != 0
    ensures AllStamped(Completions(o.events), SnapTimestamp(requestedMs, durationMs, nowMs))
    ensures |Completions(o.events)| + RejoinCount(o.events) == 1
    ensures ResolveCount(o.events) == (if state.cached.Some? then 0 else 1)
    ensures state.cached.Some? ==> o.source == state
    ensures state.cached.None? ==> o.source.cached == resolved
    ensures o.source.callId == state.callId && o.source.accessHash == state.accessHash
    ensures o.source.cached.Some? <==> state.cached.Some? || resolved.Some?
  {
    var ts := SnapTimestamp(requestedMs, durationMs, nowMs);
    var resolving: seq<Event> := if state.cached.Some? then [] else [ResolveDataSource(state.callId, state.accessHash)];
    var source := if state.cached.Some? then state.cached else resolved;
    var served := Serve(source, ts, durationMs, fetch);
    CountsAppend(resolving, served);
    Outcome(if source.Some? then state.(cached := source) else state, resolving + served)
  }

  /** A `rejoinNeeded` answer fires the rejoin callback once and completes nothing. */
  lemma RejoinNeverCompletes(state: SourceState, requestedMs: int, durationMs: int, nowMs: int,
                             resolved: Option<DataSource>, fetch: (DataSource, int, int) -> FetchResult)
    requires requestedMs == 0 ==> durationMs != 0
    requires state.cached.Some? || resolved.Some?
    requires var ds := if state.cached.Some? then state.cached.value else resolved.value;
      fetch(ds, SnapTimestamp(requestedMs, durationMs, nowMs), durationMs).status.FetchRejoinNeeded?
    ensures var o := RequestPart(state, requestedMs, durationMs, nowMs, resolved, fetch);
      RejoinCount(o.events) == 1 && Completions(o.events) == []
  {
    var o := RequestPart(state, requestedMs, durationMs, nowMs, resolved, fetch);
    var ts := SnapTimestamp(requestedMs, durationMs, nowMs);
    var ds := if state.cached.Some? then state.cached.value else resolved.value;
    var resolving: seq<Event> := if state.cached.Some? then [] else [ResolveDataSource(state.callId, state.accessHash)];
    assert o.events == resolving + ([FetchPart(ds, ts, durationMs)] + [Rejoin]);
    CountsAppend(resolving, [FetchPart(ds, ts, durationMs)] + [Rejoin]);
    CountsAppend([FetchPart(ds, ts, durationMs)], [Rejoin]);
  }

  /** Any other answer delivers exactly the part `PartFor` builds, and no rejoin. */
  lemma FetchedPartDelivered(state: SourceState, requestedMs: int, durationMs: int, nowMs: int,
                             resolved: Option<DataSource>, fetch: (DataSource, int, int) -> FetchResult)
    requires requestedMs == 0 ==> durationMs != 0
    requires state.cached.Some? || resolved.Some?
    requires var ds := if state.cached.Some? then state.cached.value else resolved.value;
      !fetch(ds, SnapTimestamp(requestedMs, durationMs, nowMs), durationMs).status.FetchRejoinNeeded?
    ensures var o := RequestPart(state, requestedMs, durationMs, nowMs, resolved, fetch);
      var ts := SnapTimestamp(requestedMs, durationMs, nowMs);
      var ds := if state.cached.Some? then state.cached.value else resolved.value;
      RejoinCount(o.events) == 0 && Completions(o.events) == [PartFor(ts, fetch(ds, ts, durationMs)).value]
  {
    var o := RequestPart(state, requestedMs, durationMs, nowMs, resolved, fetch);
    var ts := SnapTimestamp(requestedMs, durationMs, nowMs);
    var ds := if state.cached.Some? then state.cached.value else resolved.value;
    var p := PartFor(ts, fetch(ds, ts, durationMs)).value;
    var resolving: seq<Event> := if state.cached.Some? then [] else [ResolveDataSource(state.callId, state.accessHash)];
    assert o.events == resolving + ([FetchPart(ds, ts, durationMs)] + [Completion(p)]);
    CountsAppend(resolving, [FetchPart(ds, ts, durationMs)] + [Completion(p)]);
    CountsAppend([FetchPart(ds, ts, durationMs)], [Completion(p)]);
  }

  /** An unresolved data source yields a delayed, empty `notReady` part stamped with the request time. */
  lemma UnresolvedIsDelayedNotReady(state: SourceState, requestedMs: int, durationMs: int, nowMs: int,
                                    fetch: (DataSource, int, int) -> FetchResult)
    requires requestedMs == 0 ==> durationMs != 0
    requires state.cached.None?
    ensures var o := RequestPart(state, requestedMs, durationMs, nowMs, None, fetch);
      var ts := SnapTimestamp(requestedMs, durationMs, nowMs);
      && o.events == [ResolveDataSource(state.callId, state.accessHash), DelayMs(2000), Completion(Part(ts, ts as real, NotReady, []))]
      && o.source.cached.None?
  {
  }

  /**
   * Once a request has resolved a data source, the next request reuses it:
   * it resolves nothing, whatever a fresh resolution would have returned,
   * and fetches from the memoised source.
   */
  lemma SecondRequestReusesSource(state: SourceState, t1: int, t2: int, durationMs: int, now1: int, now2: int,
                                  resolved1: Option<DataSource>, resolved2: Option<DataSource>,
                                  fetch: (DataSource, int, int) -> FetchResult)
    requires t1 == 0 ==> durationMs != 0
    requires t2 == 0 ==> durationMs != 0
    requires state.cached.Some? || resolved1.Some?
    ensures var first := RequestPart(state, t1, durationMs, now1, resolved1, fetch);
      var second := RequestPart(first.source, t2, durationMs, now2, resolved2, fetch);
      var ds := if state.cached.Some? then state.cached.value else resolved1.value;
      && ResolveCount(second.events) == 0
      && second.source == first.source
      && second.events[0] == FetchPart(ds, SnapTimestamp(t2, durationMs, now2), durationMs)
  {
  }

  /** The worked example: "the current part" at 12345678 ms with 1 s segments, stream not provisioned yet. */
  lemma UnresolvedCurrentPartExample(state: SourceState, fetch: (DataSource, int, int) -> FetchResult)
    requires state.cached.None?
    ensures RequestPart(state, 0, 1000, 12345678, None, fetch).events
      == [ResolveDataSource(state.callId, state.accessHash), DelayMs(2000), Completion(Part(12345000, 12345000 as real, NotReady, []))]
  {
    assert SnapTimestamp(0, 1000, 12345678) == 12345000;
  }
}

=== FILE: call_actor.dfy ===
/**
 * The queue-confined `Impl` of a group call context, as a sequential state
 * record. Every public operation and every engine callback is one step; the
 * engine itself is an opaque collaborator whose inputs are recorded, in
 * order, in the state's command log.
 */
module CallActor {
  import opened Wrappers
  import AudioLevels

  type UInt32 = AudioLevels.UInt32

  /** Bitrate handed to the engine when the caller gives none. */
  const DefaultOutgoingAudioBitrateKbit: int := 32

  datatype ConnectionMode = NoConnection | Rtc | Broadcast
  datatype EngineConnectionMode = EngineNone | EngineRtc | EngineBroadcast

  datatype VideoContentType = NoVideo | Generic | Screencast
  datatype EngineVideoContentType = EngineNoVideo | EngineGeneric | EngineScreencast

  datatype NetworkState = NetworkState(isConnected: bool, isTransitioningFromBroadcastToRtc: bool)

  datatype Quality = Thumbnail | Medium | Full
  datatype EngineQuality = EngineThumbnail | EngineMedium | EngineFull

  datatype VideoChannel = VideoChannel(audioSsrc: UInt32, videoDescription: string, quality: Quality)
  datatype RequestedVideoChannel = RequestedVideoChannel(audioSsrc: UInt32, videoInformation: string, quality: EngineQuality)

  datatype ChannelKind = Audio | Video
  datatype EngineChannelType = EngineAudio | EngineVideo
  datatype MediaChannelDescription = MediaChannelDescription(kind: ChannelKind, audioSsrc: UInt32, videoDescription: Option<string>)
  datatype EngineChannelDescription = EngineChannelDescription(channelType: EngineChannelType, audioSsrc: UInt32, videoDescription: Option<string>)

  /** The inputs the engine receives, one per call into `GroupCallThreadLocalContext`. */
  datatype Command =
    | Create(inputDeviceId: string, outputDeviceId: string, hasVideoCapturer: bool,
             outgoingAudioBitrateKbit: int, videoContentType: EngineVideoContentType, enableNoiseSuppression: bool)
    | JoinPayloadRequest
    | JoinResponse(payload: string)
    | SsrcsRemoval(ssrcs: seq<UInt32>)
    | IncomingVideoSourceRemoval(ssrc: UInt32)
    | Volume(ssrc: UInt32, volume: real)
    | RequestedVideoChannels(channels: seq<RequestedVideoChannel>)
    | Stopping
    | ConnectionModeChange(mode: EngineConnectionMode, keepBroadcastConnectedIfWasEnabled: bool)
    | Mute(isMuted: bool)
    | NoiseSuppression(enabled: bool)
    | VideoRequest(hasCapturer: bool)
    | VideoDisabling
    | AudioInput(deviceId: string)
    | AudioOutput(deviceId: string)

  /**
   * A `ValuePromise` created with `ignoreRepeated: true`: the current value,
   * and everything an observer attached at creation has been handed (the
   * initial value, then each change).
   */
  datatype Latest<T> = Latest(value: T, delivered: seq<T>)

  function NewLatest<T>(initial: T): Latest<T> {
    Latest(initial, [initial])
  }

  predicate NoRepeats<T(==)>(xs: seq<T>) {
    forall i :: 0 < i < |xs| ==> xs[i] != xs[i - 1]
  }

  /** Observers have seen the current value last, and never the same value twice in a row. */
  predicate ValidLatest<T(==)>(l: Latest<T>) {
    |l.delivered| > 0 && l.delivered[|l.delivered| - 1] == l.value && NoRepeats(l.delivered)
  }

  /** `ValuePromise.set`: a value equal to the current one is dropped; any other is stored and delivered. */
  function Put<T(==)>(l: Latest<T>, v: T): (r: Latest<T>)
    ensures r.value == v
    ensures ValidLatest(l) ==> ValidLatest(r)
    ensures |r.delivered| == |l.delivered| + (if v == l.value then 0 else 1)
    ensures l.delivered <= r.delivered
  {
    if v == l.value then l else Latest(v, l.delivered + [v])
  }

  /** Setting the same value twice in a row delivers it at most once. */
  lemma PutTwice<T>(l: Latest<T>, v: T)
    ensures Put(Put(l, v), v) == Put(l, v)
    ensures l.value != v ==> Put(Put(l, v), v).delivered == l.delivered + [v]
  {
  }

  /** The join payload stream: not yet set, reset to never emit, or one payload with its source id. */
  datatype JoinPayload = Unset | Never | Single(payload: string, ssrc: UInt32)

  datatype CallState = CallState(
    networkState: Latest<NetworkState>,
    isMuted: Latest<bool>,
    isNoiseSuppressionEnabled: Latest<bool>,
    audioLevels: seq<seq<AudioLevels.Sample>>,
    joinPayload: JoinPayload,
    registration: nat,
    currentRequestedVideoChannels: seq<VideoChannel>,
    log: seq<Command>)

  function MapConnectionMode(m: ConnectionMode): (e: EngineConnectionMode)
    ensures e.EngineRtc? <==> m.Rtc?
  {
    match m
    case NoConnection => EngineNone
    case Rtc => EngineRtc
    case Broadcast => EngineBroadcast
  }

  function MapVideoContentType(t: VideoContentType): EngineVideoContentType {
    match t
    case NoVideo => EngineNoVideo
    case Generic => EngineGeneric
    case Screencast => EngineScreencast
  }

  function MapQuality(q: Quality): EngineQuality {
    match q
    case Thumbnail => EngineThumbnail
    case Medium => EngineMedium
    case Full => EngineFull
  }

  /** The mode, content-type and quality mappings are one-to-one. */
  lemma MappingsInjective(m1: ConnectionMode, m2: ConnectionMode, t1: VideoContentType, t2: VideoContentType,
                          q1: Quality, q2: Quality)
    ensures MapConnectionMode(m1) == MapConnectionMode(m2) ==> m1 == m2
    ensures MapVideoContentType(t1) == MapVideoContentType(t2) ==> t1 == t2
    ensures MapQuality(q1) == MapQuality(q2) ==> q1 == q2
  {
  }

  function MapChannel(c: VideoChannel): RequestedVideoChannel {
    RequestedVideoChannel(c.audioSsrc, c.videoDescription, MapQuality(c.quality))
  }

  /** The engine's view of a requested channel list: same length, same order, each channel mapped. */
  function MapChannels(cs: seq<VideoChannel>): (rs: seq<RequestedVideoChannel>)
    ensures |rs| == |cs|
    ensures forall i :: 0 <= i < |cs| ==> rs[i] == MapChannel(cs[i])
  {
    seq(|cs|, i requires 0 <= i < |cs| => MapChannel(cs[i]))
  }

  /** Distinct channel lists reach the engine as distinct lists. */
  lemma MapChannelsInjective(a: seq<VideoChannel>, b: seq<VideoChannel>)
    requires MapChannels(a) == MapChannels(b)
    ensures a == b
  {
    assert |a| == |b|;
    forall i | 0 <= i < |a|
      ensures a[i] == b[i]
    {
      assert MapChannel(a[i]) == MapChannel(b[i]);
      MappingsInjective(NoConnection, NoConnection, NoVideo, NoVideo, a[i].quality, b[i].quality);
    }
  }

  /** Channel descriptions handed back to the engine by `requestMediaChannelDescriptions`. */
  function MapDescriptions(ds: seq<MediaChannelDescription>): (es: seq<EngineChannelDescription>)
    ensures |es| == |ds|
    ensures forall i :: 0 <= i < |ds| ==>
      && es[i].audioSsrc == ds[i].audioSsrc
      && es[i].videoDescription == ds[i].videoDescription
      && (es[i].channelType.EngineVideo? <==> ds[i].kind.Video?)
  {
    seq(|ds|, i requires 0 <= i < |ds| =>
      EngineChannelDescription(if ds[i].kind.Audio? then EngineAudio else EngineVideo, ds[i].audioSsrc, ds[i].videoDescription))
  }

  /** The most recent noise-suppression setting the engine was given, at creation or since. */
  function EngineNoiseSuppression(log: seq<Command>): Option<bool>
    decreases |log|
  {
    if |log| == 0 then None
    else match log[|log| - 1]
      case NoiseSuppression(enabled) => Some(enabled)
      case Create(_, _, _, _, _, enabled) => Some(enabled)
      case _ => EngineNoiseSuppression(log[..|log| - 1])
  }

  /** The most recent mute setting the engine was given, if any. */
  function EngineMute(log: seq<Command>): Option<bool>
    decreases |log|
  {
    if |log| == 0 then None
    else match log[|log| - 1]
      case Mute(isMuted) => Some(isMuted)
      case _ => EngineMute(log[..|log| - 1])
  }

  /** The most recent requested-channel list the engine was given; none means the empty list. */
  function EngineChannels(log: seq<Command>): seq<RequestedVideoChannel>
    decreases |log|
  {
    if |log| == 0 then []
    else match log[|log| - 1]
      case RequestedVideoChannels(channels) => channels
      case _ => EngineChannels(log[..|log| - 1])
  }

  /**
   * What every step keeps: the latest-value cells are well formed, and the
   * published noise-suppression, mute and requested-channel snapshots agree
   * with what the engine was last told.
   */
  predicate Consistent(s: CallState) {
    && ValidLatest(s.networkState)
    && ValidLatest(s.isMuted)
    && ValidLatest(s.isNoiseSuppressionEnabled)
    && EngineNoiseSuppression(s.log) == Some(s.isNoiseSuppressionEnabled.value)
    && (EngineMute(s.log).Some? ==> EngineMute(s.log) == Some(s.isMuted.value))
    && EngineChannels(s.log) == MapChannels(s.currentRequestedVideoChannels)
  }

  /** A command that tells the engine none of the tracked settings. */
  predicate Untracked(c: Command) {
    !c.NoiseSuppression? && !c.Create? && !c.Mute? && !c.RequestedVideoChannels?
  }

  lemma AppendUntracked(log: seq<Command>, c: Command)
    requires Untracked(c)
    ensures EngineNoiseSuppression(log + [c]) == EngineNoiseSuppression(log)
    ensures EngineMute(log + [c]) == EngineMute(log)
    ensures EngineChannels(log + [c]) == EngineChannels(log)
  {
    assert (log + [c])[..|log|] == log;
  }

  /**
   * `Impl.init` as the source writes it: the noise-suppression cell starts
   * at `true` whatever `enableNoiseSuppression` the engine is created with.
   */
  function InitAsWritten(inputDeviceId: string, outputDeviceId: string, hasVideoCapturer: bool,
                         outgoingAudioBitrateKbit: Option<int>, videoContentType: VideoContentType,
                         enableNoiseSuppression: bool): (s: CallState)
    ensures s.isNoiseSuppressionEnabled.value
    ensures EngineNoiseSuppression(s.log) == Some(enableNoiseSuppression)
  {
    var created := Create(inputDeviceId, outputDeviceId, hasVideoCapturer,
                          outgoingAudioBitrateKbit.GetOr(DefaultOutgoingAudioBitrateKbit),
                          MapVideoContentType(videoContentType), enableNoiseSuppression);
    AppendUntracked([created], JoinPayloadRequest);
    assert [created] + [JoinPayloadRequest] == [created, JoinPayloadRequest];
    CallState(NewLatest(NetworkState(false, false)), NewLatest(true), NewLatest(true), [], Unset, 0, [],
              [created, JoinPayloadRequest])
  }

  /** Created with noise suppression off, the as-written state publishes "on" while the engine has it off. */
  lemma InitAsWrittenDisagrees(inputDeviceId: string, outputDeviceId: string, hasVideoCapturer: bool,
                               outgoingAudioBitrateKbit: Option<int>, videoContentType: VideoContentType)
    ensures !Consistent(InitAsWritten(inputDeviceId, outputDeviceId, hasVideoCapturer,
                                      outgoingAudioBitrateKbit, videoContentType, false))
  {
    var s := InitAsWritten(inputDeviceId, outputDeviceId, hasVideoCapturer, outgoingAudioBitrateKbit, videoContentType, false);
    assert EngineNoiseSuppression(s.log) == Some(false);
  }

  /**
   * `Impl.init` with the noise-suppression cell seeded from the flag the
   * engine is created with: the engine is created (default bitrate 32 kbit/s),
   * asked for a join payload, and every published cell starts at its initial
   * value.
   */
  function Init(inputDeviceId: string, outputDeviceId: string, hasVideoCapturer: bool,
                outgoingAudioBitrateKbit: Option<int>, videoContentType: VideoContentType,
                enableNoiseSuppression: bool): (s: CallState)
    ensures Consistent(s)
    ensures s.isNoiseSuppressionEnabled.value == enableNoiseSuppression
    ensures s.isMuted.value && !s.networkState.value.isConnected
    ensures s.joinPayload.Unset? && s.currentRequestedVideoChannels == [] && s.audioLevels == []
    ensures s.log == [Create(inputDeviceId, outputDeviceId, hasVideoCapturer, outgoingAudioBitrateKbit.GetOr(32),
                             MapVideoContentType(videoContentType), enableNoiseSuppression),
                      JoinPayloadRequest]
  {
    var created := Create(inputDeviceId, outputDeviceId, hasVideoCapturer,
                          outgoingAudioBitrateKbit.GetOr(DefaultOutgoingAudioBitrateKbit),
                          MapVideoContentType(videoContentType), enableNoiseSuppression);
    AppendUntracked([created], JoinPayloadRequest);
    assert [created] + [JoinPayloadRequest] == [created, JoinPayloadRequest];
    assert EngineMute([created]) == None by {
      assert [created][..0] == [];
    }
    assert EngineChannels([created]) == [] by {
      assert [created][..0] == [];
    }
    CallState(NewLatest(NetworkState(false, false)), NewLatest(true), NewLatest(enableNoiseSuppression), [], Unset, 0, [],
              [created, JoinPayloadRequest])
  }

  /** Appends a command that touches none of the tracked settings. */
  function Tell(s: CallState, c: Command): (r: CallState)
    requires Untracked(c)
    ensures Consistent(s) ==> Consistent(r)
    ensures r == s.(log := s.log + [c])
  {
    AppendUntracked(s.log, c);
    s.(log := s.log + [c])
  }

  /** `addSsrcs` does nothing at all. */
  function AddSsrcs(s: CallState, ssrcs: seq<UInt32>): (r: CallState)
    ensures r == s
  {
    s
  }

  /** `removeSsrcs`: an empty list is dropped; any other is forwarded unchanged, in order. */
  function RemoveSsrcs(s: CallState, ssrcs: seq<UInt32>): (r: CallState)
    ensures Consistent(s) ==> Consistent(r)
    ensures ssrcs == [] <==> r == s
    ensures ssrcs != [] ==> r.log == s.log + [SsrcsRemoval(ssrcs)]
  {
    if ssrcs == [] then s else Tell(s, SsrcsRemoval(ssrcs))
  }

  /**
   * `setRequestedVideoChannels`: the engine is told only when the list
   * differs from the stored one; afterwards the stored list is the new one.
   */
  function SetRequestedVideoChannels(s: CallState, channels: seq<VideoChannel>): (r: CallState)
    ensures Consistent(s) ==> Consistent(r)
    ensures r.currentRequestedVideoChannels == channels
    ensures channels == s.currentRequestedVideoChannels <==> r.log == s.log
    ensures channels != s.currentRequestedVideoChannels ==> r.log == s.log + [RequestedVideoChannels(MapChannels(channels))]
    ensures r.(currentRequestedVideoChannels := s.currentRequestedVideoChannels, log := s.log) == s
  {
    if s.currentRequestedVideoChannels != channels then
      var log := s.log + [RequestedVideoChannels(MapChannels(channels))];
      assert log[..|s.log|] == s.log;
      s.(currentRequestedVideoChannels := channels, log := log)
    else s
  }

  /** Requesting the same list twice costs one engine command. */
  lemma RequestedVideoChannelsIdempotent(s: CallState, channels: seq<VideoChannel>)
    ensures SetRequestedVideoChannels(SetRequestedVideoChannels(s, channels), channels) == SetRequestedVideoChannels(s, channels)
    ensures |SetRequestedVideoChannels(SetRequestedVideoChannels(s, channels), channels).log| <= |s.log| + 1
  {
  }

  /**
   * `setConnectionMode`: the mapped mode and the keep-broadcast flag always
   * reach the engine; any mode but `rtc` then resets the join payload to
   * never emit and registers a fresh payload callback with the engine, which
   * opens a new registration.
   */
  function SetConnectionMode(s: CallState, mode: ConnectionMode, keepBroadcastConnectedIfWasEnabled: bool): (r: CallState)
    ensures Consistent(s) ==> Consistent(r)
    ensures |r.log| > |s.log| && r.log[|s.log|] == ConnectionModeChange(MapConnectionMode(mode), keepBroadcastConnectedIfWasEnabled)
    ensures mode.Rtc? ==> r == s.(log := s.log + [ConnectionModeChange(EngineRtc, keepBroadcastConnectedIfWasEnabled)])
    ensures !mode.Rtc? ==> r.joinPayload.Never? && r.log[|s.log|..] == [ConnectionModeChange(MapConnectionMode(mode), keepBroadcastConnectedIfWasEnabled), JoinPayloadRequest]
    ensures !mode.Rtc? ==> r.registration == s.registration + 1
    ensures r.(joinPayload := s.joinPayload, registration := s.registration, log := s.log) == s
  {
    var mapped := MapConnectionMode(mode);
    var told := Tell(s, ConnectionModeChange(mapped, keepBroadcastConnectedIfWasEnabled));
    if mapped != EngineRtc then
      var r := Tell(told.(joinPayload := Never, registration := s.registration + 1), JoinPayloadRequest);
      assert r.log[|s.log|..] == [ConnectionModeChange(mapped, keepBroadcastConnectedIfWasEnabled), JoinPayloadRequest];
      r
    else told
  }

  /** `setIsMuted`: the published snapshot and the engine both take the new value. */
  function SetIsMuted(s: CallState, isMuted: bool): (r: CallState)
    ensures Consistent(s) ==> Consistent(r)
    ensures r.isMuted.value == isMuted && EngineMute(r.log) == Some(isMuted)
    ensures r.log == s.log + [Mute(isMuted)]
    ensures r.(isMuted := s.isMuted, log := s.log) == s
  {
    var log := s.log + [Mute(isMuted)];
    assert log[..|s.log|] == s.log;
    s.(isMuted := Put(s.isMuted, isMuted), log := log)
  }

  /** `setIsNoiseSuppressionEnabled`: the same pattern for the noise-suppression snapshot. */
  function SetIsNoiseSuppressionEnabled(s: CallState, enabled: bool): (r: CallState)
    ensures Consistent(s) ==> Consistent(r)
    ensures r.isNoiseSuppressionEnabled.value == enabled && EngineNoiseSuppression(r.log) == Some(enabled)
    ensures r.log == s.log + [NoiseSuppression(enabled)]
    ensures r.(isNoiseSuppressionEnabled := s.isNoiseSuppressionEnabled, log := s.log) == s
  {
    var log := s.log + [NoiseSuppression(enabled)];
    assert log[..|s.log|] == s.log;
    s.(isNoiseSuppressionEnabled := Put(s.isNoiseSuppressionEnabled, enabled), log := log)
  }

  /** Engine callback `networkStateUpdated`, re-entered on the call queue. */
  function OnNetworkStateUpdated(s: CallState, state: NetworkState): (r: CallState)
    ensures Consistent(s) ==> Consistent(r)
    ensures r.networkState.value == state
    ensures r.(networkState := s.networkState) == s
  {
    s.(networkState := Put(s.networkState, state))
  }

  /** Engine callback `audioLevelsUpdated`: every decoded batch is delivered, repeated or not. */
  function OnAudioLevelsUpdated(s: CallState, levels: seq<AudioLevels.Number>): (r: CallState)
    requires |levels| % 3 == 0
    ensures Consistent(s) ==> Consistent(r)
    ensures r.audioLevels == s.audioLevels + [AudioLevels.Decode(levels)]
    ensures r.(audioLevels := s.audioLevels) == s
  {
    s.(audioLevels := s.audioLevels + [AudioLevels.Decode(levels)])
  }

  /**
   * The payload callback as the source writes it (after `emitJoinPayload`,
   * `requestVideo` or `disableVideo`): the payload replaces the stream,
   * whichever registration it was produced for.
   */
  function OnJoinPayloadAsWritten(s: CallState, payload: string, ssrc: UInt32): (r: CallState)
    ensures Consistent(s) ==> Consistent(r)
    ensures r == s.(joinPayload := Single(payload, ssrc))
  {
    s.(joinPayload := Single(payload, ssrc))
  }

  /**
   * The payload callback with the registration check the mode switch's reset
   * calls for: a payload produced for the current registration replaces the
   * stream, and one produced before the latest switch is dropped.
   */
  function OnJoinPayload(s: CallState, payload: string, ssrc: UInt32, registration: nat): (r: CallState)
    ensures Consistent(s) ==> Consistent(r)
    ensures registration == s.registration ==> r == s.(joinPayload := Single(payload, ssrc))
    ensures registration != s.registration ==> r == s
  {
    if registration == s.registration then OnJoinPayloadAsWritten(s, payload, ssrc) else s
  }

  /** One step of the actor: a public operation or an engine callback. */
  datatype Op =
    | OpSetJoinResponse(payload: string)
    | OpAddSsrcs(ssrcs: seq<UInt32>)
    | OpRemoveSsrcs(ssrcs: seq<UInt32>)
    | OpRemoveIncomingVideoSource(ssrc: UInt32)
    | OpSetVolume(ssrc: UInt32, volume: real)
    | OpSetRequestedVideoChannels(channels: seq<VideoChannel>)
    | OpStop
    | OpSetConnectionMode(mode: ConnectionMode, keep: bool)
    | OpSetIsMuted(isMuted: bool)
    | OpSetIsNoiseSuppressionEnabled(enabled: bool)
    | OpRequestVideo(hasCapturer: bool)
    | OpDisableVideo
    | OpSwitchAudioInput(deviceId: string)
    | OpSwitchAudioOutput(deviceId: string)
    | OpNetworkStateUpdated(state: NetworkState)
    | OpAudioLevelsUpdated(levels: seq<AudioLevels.Number>)
    | OpJoinPayload(payload: string, ssrc: UInt32, registration: nat)

  /** Only well-formed audio-level arrays reach the actor. */
  predicate WellFormedOp(op: Op) {
    op.OpAudioLevelsUpdated? ==> |op.levels| % 3 == 0
  }

  /**
   * Applies one operation; pass-through operations forward one command
   * unchanged. Engine payloads go through the corrected, registration-checked
   * `OnJoinPayload`, not the source's `OnJoinPayloadAsWritten`; every other
   * operation is as the source writes it.
   */
  function Step(s: CallState, op: Op): CallState
    requires WellFormedOp(op)
  {
    match op
    case OpSetJoinResponse(payload) => Tell(s, JoinResponse(payload))
    case OpAddSsrcs(ssrcs) => AddSsrcs(s, ssrcs)
    case OpRemoveSsrcs(ssrcs) => RemoveSsrcs(s, ssrcs)
    case OpRemoveIncomingVideoSource(ssrc) => Tell(s, IncomingVideoSourceRemoval(ssrc))
    case OpSetVolume(ssrc, volume) => Tell(s, Volume(ssrc, volume))
    case OpSetRequestedVideoChannels(channels) => SetRequestedVideoChannels(s, channels)
    case OpStop => Tell(s, Stopping)
    case OpSetConnectionMode(mode, keep) => SetConnectionMode(s, mode, keep)
    case OpSetIsMuted(isMuted) => SetIsMuted(s, isMuted)
    case OpSetIsNoiseSuppressionEnabled(enabled) => SetIsNoiseSuppressionEnabled(s, enabled)
    case OpRequestVideo(hasCapturer) => Tell(s, VideoRequest(hasCapturer))
    case OpDisableVideo => Tell(s, VideoDisabling)
    case OpSwitchAudioInput(deviceId) => Tell(s, AudioInput(deviceId))
    case OpSwitchAudioOutput(deviceId) => Tell(s, AudioOutput(deviceId))
    case OpNetworkStateUpdated(state) => OnNetworkStateUpdated(s, state)
    case OpAudioLevelsUpdated(levels) => OnAudioLevelsUpdated(s, levels)
    case OpJoinPayload(payload, ssrc, registration) => OnJoinPayload(s, payload, ssrc, registration)
  }

  function Run(s: CallState, ops: seq<Op>): CallState
    requires forall i :: 0 <= i < |ops| ==> WellFormedOp(ops[i])
    decreases |ops|
  {
    if |ops| == 0 then s else Run(Step(s, ops[0]), ops[1..])
  }

  /** Each step appends at most two engine commands and never rewrites earlier ones. */
  lemma StepExtendsLog(s: CallState, op: Op)
    requires WellFormedOp(op)
    ensures s.log <= Step(s, op).log
    ensures |Step(s, op).log| <= |s.log| + 2
  {
  }

  /**
   * Any sequence of operations from a consistent state keeps it consistent,
   * and the engine receives commands in issuance order: the old log is a
   * prefix of the new one.
   */
  lemma {:induction false} RunPreservesConsistency(s: CallState, ops: seq<Op>)
    requires forall i :: 0 <= i < |ops| ==> WellFormedOp(ops[i])
    requires Consistent(s)
    ensures Consistent(Run(s, ops))
    ensures s.log <= Run(s, ops).log
    decreases |ops|
  {
    if |ops| > 0 {
      var t := Step(s, ops[0]);
      StepExtendsLog(s, ops[0]);
      RunPreservesConsistency(t, ops[1..]);
    }
  }

  /**
   * For the corrected actor (`Step` with the registration-checked
   * `OnJoinPayload`): after leaving `rtc`, the join payload stays silent
   * until the engine produces one for the new registration, and no other
   * operation but another mode switch brings a payload back. The source does
   * not promise this; `StalePayloadLands` shows why.
   */
  lemma NoStalePayloadAfterModeSwitch(s: CallState, mode: ConnectionMode, keep: bool)
    requires !mode.Rtc?
    ensures SetConnectionMode(s, mode, keep).joinPayload == Never
    ensures SetConnectionMode(s, mode, keep).registration > s.registration
    ensures forall op :: WellFormedOp(op) && !op.OpSetConnectionMode? ==>
      (Step(SetConnectionMode(s, mode, keep), op).joinPayload == Never
       <==> !(op.OpJoinPayload? && op.registration == s.registration + 1))
  {
  }

  /**
   * For the corrected actor: from a reset stream, any run without a mode
   * switch whose engine payloads were all produced for earlier registrations
   * leaves the stream reset.
   */
  lemma {:induction false} NoStalePayloadInRun(t: CallState, ops: seq<Op>)
    requires t.joinPayload == Never
    requires forall i :: 0 <= i < |ops| ==> WellFormedOp(ops[i]) && !ops[i].OpSetConnectionMode?
    requires forall i :: 0 <= i < |ops| && ops[i].OpJoinPayload? ==> ops[i].registration < t.registration
    ensures Run(t, ops).joinPayload == Never
    ensures Run(t, ops).registration == t.registration
    decreases |ops|
  {
    if |ops| > 0 {
      var u := Step(t, ops[0]);
      assert u.joinPayload == Never && u.registration == t.registration;
      NoStalePayloadInRun(u, ops[1..]);
    }
  }

  /**
   * As written, a payload produced for the registration that was current
   * before the switch (its `queue.async` block queued behind the pending
   * `setConnectionMode`) replaces the reset stream.
   */
  lemma StalePayloadLands(s: CallState, mode: ConnectionMode, keep: bool, payload: string, ssrc: UInt32)
    requires !mode.Rtc?
    ensures SetConnectionMode(s, mode, keep).joinPayload == Never
    ensures OnJoinPayloadAsWritten(SetConnectionMode(s, mode, keep), payload, ssrc).joinPayload == Single(payload, ssrc)
  {
  }
}

=== FILE: secure_id_auth.dfy ===
/**
 * The Telegram Passport authorization screen's logic: how request errors
 * are classified, and the password-challenge state machine with the guards
 * every user action and every server answer passes through.
 *
 * Network requests, alerts and decryption are outside the model: server
 * answers arrive as separate steps, and the decryption helpers are
 * parameters.
 */
module SecureIdAuth {
  import opened Wrappers
  import SecureIdUrl

  // ---------------------------------------------------------------- errors

  /** Server error codes that are passed back to the bot in the error callback. */
  const PassErrorCodes: seq<string> :=
    ["BOT_INVALID", "PUBLIC_KEY_REQUIRED", "PUBLIC_KEY_INVALID", "SCOPE_EMPTY", "PAYLOAD_EMPTY", "NONCE_EMPTY"]

  /** `RequestSecureIdFormError`, as far as the controller distinguishes it. */
  datatype FormError = ServerError(code: string) | FormVersionOutdated | FormGeneric

  /** `GetAllSecureIdValuesError`. */
  datatype ValuesError = ValuesVersionOutdated | ValuesGeneric

  /** The error value `handleError` receives. */
  datatype RequestError = FromForm(formError: FormError) | FromValues(valuesError: ValuesError) | Unrecognized

  datatype Classification = Classification(passError: Option<string>, appUpdateRequired: bool)

  /** The classification at the top of `handleError`. */
  function Classify(e: RequestError): (c: Classification)
    ensures c.passError.Some? <==> e.FromForm? && e.formError.ServerError? && e.formError.code in PassErrorCodes
    ensures c.passError.Some? ==> c.passError.value == e.formError.code
    ensures c.appUpdateRequired <==> e == FromForm(FormVersionOutdated) || e == FromValues(ValuesVersionOutdated)
    ensures !(c.passError.Some? && c.appUpdateRequired)
  {
    match e
    case FromForm(ServerError(code)) =>
      if code in PassErrorCodes then Classification(Some(code), false) else Classification(None, false)
    case FromForm(FormVersionOutdated) => Classification(None, true)
    case FromValues(ValuesVersionOutdated) => Classification(None, true)
    case _ => Classification(None, false)
  }

  /** The alert `handleError` shows; an error alert's OK button may open a callback URL. */
  datatype ErrorAlert = UpdateRequiredAlert | UnknownErrorAlert(openOnOk: Option<string>) | NoAlert

  /** `handleError`: the alert to show; the controller is dismissed in every case. */
  function HandleError(e: RequestError, callbackUrl: Option<string>, peerId: Option<int>): (a: ErrorAlert)
    ensures a.UpdateRequiredAlert? <==> Classify(e).appUpdateRequired
    ensures a.UnknownErrorAlert? <==> !Classify(e).appUpdateRequired && callbackUrl.Some? && peerId.Some?
    ensures a.UnknownErrorAlert? && a.openOnOk.Some? <==> a.UnknownErrorAlert? && Classify(e).passError.Some?
    ensures a.UnknownErrorAlert? && a.openOnOk.Some? ==>
      SecureIdUrl.ReadCallbackUrl(callbackUrl.value, peerId.value, a.openOnOk.value)
        == Some((SecureIdUrl.Error, [("error", Classify(e).passError.value)]))
  {
    var c := Classify(e);
    if c.appUpdateRequired then UpdateRequiredAlert
    else if callbackUrl.Some? && peerId.Some? then
      match c.passError
      case Some(code) =>
        PassErrorCodesPlain(code);
        SecureIdUrl.ErrorCallbackCarriesCode(callbackUrl.value, peerId.value, code);
        UnknownErrorAlert(Some(SecureIdUrl.ErrorCallbackUrl(callbackUrl.value, peerId.value, code)))
      case None => UnknownErrorAlert(None)
    else NoAlert
  }

  /** None of the passed-back codes needs escaping in a query. */
  lemma PassErrorCodesPlain(code: string)
    requires code in PassErrorCodes
    ensures '&' !in code && '=' !in code
  {
  }

  // ---------------------------------------------------------------- state

  /** `SecureIdAccessContext` and the encrypted or decrypted payloads: opaque handles. */
  datatype AccessContext = AccessContext(id: nat)
  datatype Blob = Blob(id: nat)

  /** The sub-state of a password challenge (Swift's `.none`, `.invalid`, `.checking`). */
  datatype ChallengeState = Idle | Invalid | Checking

  datatype VerificationState =
    | PasswordChallenge(hint: string, challenge: ChallengeState, hasRecoveryEmail: bool)
    | Verified(context: AccessContext)
    | NoChallenge(emailPattern: Option<string>)

  /** What the form and list modes hold beyond the shared fields. */
  datatype Content =
    | Form(encryptedFormData: Option<Blob>, formData: Option<Blob>)
    | List(encryptedValues: Option<Blob>, values: Option<Blob>)

  /** `SecureIdAuthControllerState`, with the fields both modes share pulled out. */
  datatype AuthState = AuthState(content: Content, verificationState: Option<VerificationState>,
                                 twoStepEmail: Option<string>, removingValues: bool)

  /**
   * The controller as far as the model sees it: its state, the progress
   * indicator, whether its display node is loaded, and how many times the
   * node has been handed a state to draw.
   */
  datatype Controller = Controller(state: AuthState, progressShown: bool, nodeLoaded: bool, renders: nat)

  predicate IsChecking(v: Option<VerificationState>) {
    v.Some? && v.value.PasswordChallenge? && v.value.challenge.Checking?
  }

  /** A request is in flight: a password is being checked or values are being removed. */
  predicate HasProgress(s: AuthState) {
    IsChecking(s.verificationState) || s.removingValues
  }

  /** The navigation bar shows the progress indicator exactly while there is progress. */
  predicate InSync(c: Controller) {
    c.progressShown == HasProgress(c.state)
  }

  /** A freshly created controller: no verification state yet, the info button shown, no node loaded. */
  function NewController(isForm: bool): (c: Controller)
    ensures InSync(c) && c.state.verificationState.None?
    ensures !c.nodeLoaded && c.renders == 0
  {
    var content := if isForm then Form(None, None) else List(None, None);
    Controller(AuthState(content, None, None, false), false, false, 0)
  }

  /** `loadDisplayNode`: the node is created once and drawn with the current state. */
  function LoadDisplayNode(c: Controller): (r: Controller)
    ensures r.nodeLoaded
    ensures r.renders == if c.nodeLoaded then c.renders else c.renders + 1
    ensures r.(nodeLoaded := c.nodeLoaded, renders := c.renders) == c
  {
    if c.nodeLoaded then c else c.(nodeLoaded := true, renders := c.renders + 1)
  }

  /**
   * `updateState`: an unchanged state is dropped; a changed one is stored,
   * drawn if the node is loaded, and the progress indicator is switched when
   * progress starts or ends.
   */
  function UpdateState(c: Controller, next: AuthState): (r: Controller)
    ensures InSync(c) ==> InSync(r)
    ensures r.state == next && r.nodeLoaded == c.nodeLoaded
    ensures next == c.state <==> r == c
    ensures next != c.state ==> r.renders == if c.nodeLoaded then c.renders + 1 else c.renders
  {
    if next == c.state then c
    else
      var before := HasProgress(c.state);
      var after := HasProgress(next);
      Controller(next, if before != after then after else c.progressShown, c.nodeLoaded,
                 if c.nodeLoaded then c.renders + 1 else c.renders)
  }

  function WithVerification(s: AuthState, v: VerificationState): AuthState {
    s.(verificationState := Some(v))
  }

  // ---------------------------------------------------------------- loading the challenge

  /** `twoStepAuthData` as the controller reads it. */
  datatype TwoStepData = TwoStepData(hasPassword: bool, currentHint: Option<string>, hasRecovery: bool,
                                     unconfirmedEmailPattern: Option<string>)

  function ChallengeFor(data: TwoStepData): VerificationState {
    PasswordChallenge(data.currentHint.GetOr(""), Idle, data.hasRecovery)
  }

  /**
   * The two-step data arrives: with a password and a stored one, access is
   * attempted silently (the result is `true` and the state is left for the
   * answer); otherwise the challenge, or its absence, is installed at once.
   */
  function ChallengeLoaded(c: Controller, data: TwoStepData, storedPassword: Option<string>): (r: (Controller, bool))
    ensures InSync(c) ==> InSync(r.0)
    ensures r.1 <==> data.hasPassword && storedPassword.Some?
    ensures r.1 ==> r.0 == c
    ensures !r.1 && data.hasPassword ==>
      r.0.state == c.state.(verificationState := Some(PasswordChallenge(data.currentHint.GetOr(""), Idle, data.hasRecovery)))
    ensures !data.hasPassword ==> r.0.state == c.state.(verificationState := Some(NoChallenge(data.unconfirmedEmailPattern)))
  {
    if data.hasPassword && storedPassword.Some? then (c, true)
    else if data.hasPassword then (UpdateState(c, WithVerification(c.state, ChallengeFor(data))), false)
    else (UpdateState(c, WithVerification(c.state, NoChallenge(data.unconfirmedEmailPattern))), false)
  }

  /** The silent attempt failed: the challenge appears, unless a verification state arrived meanwhile. */
  function AutoAccessFailed(c: Controller, data: TwoStepData): (r: Controller)
    ensures InSync(c) ==> InSync(r)
    ensures c.state.verificationState.Some? ==> r == c
    ensures c.state.verificationState.None? ==>
      r.state == c.state.(verificationState := Some(PasswordChallenge(data.currentHint.GetOr(""), Idle, data.hasRecovery)))
  {
    if c.state.verificationState.None? then UpdateState(c, WithVerification(c.state, ChallengeFor(data))) else c
  }

  /** A successful access: verified, the account e-mail recorded, and the held payload decrypted. */
  function Verify(s: AuthState, context: AccessContext, email: string,
                  decryptForm: (AccessContext, Blob) -> Option<Blob>,
                  decryptValues: (AccessContext, Blob) -> Option<Blob>): (t: AuthState)
    ensures t.verificationState == Some(Verified(context))
    ensures t.twoStepEmail.Some? <==> email != ""
    ensures t.twoStepEmail.Some? ==> t.twoStepEmail.value == email
    ensures t.removingValues == s.removingValues && t.content.Form? == s.content.Form?
    ensures !HasProgress(t) <==> !s.removingValues
    ensures s.content.Form? ==> t.content.encryptedFormData == s.content.encryptedFormData
    ensures s.content.Form? ==>
      t.content.formData == (if s.content.encryptedFormData.Some? then decryptForm(context, s.content.encryptedFormData.value) else None)
    ensures s.content.List? ==> t.content.encryptedValues == s.content.encryptedValues
    ensures s.content.List? ==>
      t.content.values == (if s.content.encryptedValues.Some? then decryptValues(context, s.content.encryptedValues.value) else None)
  {
    var content := match s.content
      case Form(encrypted, _) =>
        Form(encrypted, if encrypted.Some? then decryptForm(context, encrypted.value) else None)
      case List(encrypted, _) =>
        List(encrypted, if encrypted.Some? then decryptValues(context, encrypted.value) else None);
    AuthState(content, Some(Verified(context)), if email != "" then Some(email) else None, s.removingValues)
  }

  /** The silent attempt succeeded: applied only while no verification state is set. */
  function AutoAccessSucceeded(c: Controller, context: AccessContext, email: string,
                               decryptForm: (AccessContext, Blob) -> Option<Blob>,
                               decryptValues: (AccessContext, Blob) -> Option<Blob>): (r: Controller)
    ensures InSync(c) ==> InSync(r)
    ensures c.state.verificationState.Some? ==> r == c
    ensures c.state.verificationState.None? ==> r.state == Verify(c.state, context, email, decryptForm, decryptValues)
  {
    if c.state.verificationState.None? then UpdateState(c, Verify(c.state, context, email, decryptForm, decryptValues)) else c
  }

  // ---------------------------------------------------------------- checking a password

  /**
   * `checkPassword`: acts only on a password challenge that is not already
   * being checked; it moves the challenge to `checking` and starts the
   * request (the second component).
   */
  function CheckPassword(c: Controller): (r: (Controller, bool))
    ensures InSync(c) ==> InSync(r.0)
    ensures r.1 <==> c.state.verificationState.Some? && c.state.verificationState.value.PasswordChallenge?
                     && !c.state.verificationState.value.challenge.Checking?
    ensures !r.1 ==> r.0 == c
    ensures r.1 ==> var v := c.state.verificationState.value;
      r.0.state == c.state.(verificationState := Some(PasswordChallenge(v.hint, Checking, v.hasRecoveryEmail)))
  {
    match c.state.verificationState
    case Some(PasswordChallenge(hint, challenge, hasRecoveryEmail)) =>
      if challenge.Checking? then (c, false)
      else (UpdateState(c, WithVerification(c.state, PasswordChallenge(hint, Checking, hasRecoveryEmail))), true)
    case _ => (c, false)
  }

  /** The password was accepted: the answer is applied only while the check is still running. */
  function CheckPasswordSucceeded(c: Controller, context: AccessContext, email: string,
                                  decryptForm: (AccessContext, Blob) -> Option<Blob>,
                                  decryptValues: (AccessContext, Blob) -> Option<Blob>): (r: (Controller, bool))
    ensures InSync(c) ==> InSync(r.0)
    ensures r.1 <==> IsChecking(c.state.verificationState)
    ensures !r.1 ==> r.0 == c
    ensures r.1 ==> r.0.state == Verify(c.state, context, email, decryptForm, decryptValues)
  {
    if IsChecking(c.state.verificationState) then
      (UpdateState(c, Verify(c.state, context, email, decryptForm, decryptValues)), true)
    else (c, false)
  }

  datatype PasswordError = InvalidPassword | LimitExceeded | PasswordGeneric
  datatype AccessError = FromPassword(passwordError: PasswordError) | AccessGeneric | SecretPasswordMismatch

  /** The message of the alert shown for a failed check. */
  datatype ErrorText = InvalidPasswordText | FloodText | UnknownErrorText

  function TextFor(e: AccessError): (t: ErrorText)
    ensures t.InvalidPasswordText? <==> e == FromPassword(InvalidPassword)
    ensures t.FloodText? <==> e == FromPassword(LimitExceeded)
  {
    match e
    case FromPassword(InvalidPassword) => InvalidPasswordText
    case FromPassword(LimitExceeded) => FloodText
    case _ => UnknownErrorText
  }

  /**
   * The password was rejected: the alert is always shown; a running check
   * turns `invalid`, keeping its hint and recovery flag.
   */
  function CheckPasswordFailed(c: Controller, e: AccessError): (r: (Controller, ErrorText))
    ensures InSync(c) ==> InSync(r.0)
    ensures r.1 == TextFor(e)
    ensures !IsChecking(c.state.verificationState) ==> r.0 == c
    ensures IsChecking(c.state.verificationState) ==> var v := c.state.verificationState.value;
      r.0.state == c.state.(verificationState := Some(PasswordChallenge(v.hint, Invalid, v.hasRecoveryEmail)))
  {
    match c.state.verificationState
    case Some(PasswordChallenge(hint, Checking, hasRecoveryEmail)) =>
      (UpdateState(c, WithVerification(c.state, PasswordChallenge(hint, Invalid, hasRecoveryEmail))), TextFor(e))
    case _ => (c, TextFor(e))
  }

  /** A rejected password can be retried: the challenge is back in a state `checkPassword` accepts. */
  lemma {:induction false} RejectedPasswordCanBeRetried(c: Controller, e: AccessError)
    requires CheckPassword(c).1
    ensures var checking := CheckPassword(c).0;
      var failed := CheckPasswordFailed(checking, e).0;
      && failed.state.verificationState.value.challenge == Invalid
      && failed.state.verificationState.value.hint == c.state.verificationState.value.hint
      && CheckPassword(failed).1
  {
    var v := c.state.verificationState.value;
    var checking := CheckPassword(c).0;
    assert checking.state.verificationState == Some(PasswordChallenge(v.hint, Checking, v.hasRecoveryEmail));
    var failed := CheckPasswordFailed(checking, e).0;
    assert failed.state.verificationState == Some(PasswordChallenge(v.hint, Invalid, v.hasRecoveryEmail));
  }

  // ---------------------------------------------------------------- help and setup

  datatype HelpAction = HelpIgnored | ResetPrompt | RecoveryUnavailableAlert

  /** `openPasswordHelp`: ignored unless a challenge is shown and not being checked. */
  function OpenPasswordHelp(c: Controller): (a: HelpAction)
    ensures a.HelpIgnored? <==> !(c.state.verificationState.Some? && c.state.verificationState.value.PasswordChallenge?
                                  && !c.state.verificationState.value.challenge.Checking?)
    ensures a.ResetPrompt? <==> !a.HelpIgnored? && c.state.verificationState.value.hasRecoveryEmail
  {
    match c.state.verificationState
    case Some(PasswordChallenge(_, challenge, hasRecoveryEmail)) =>
      if challenge.Checking? then HelpIgnored
      else if hasRecoveryEmail then ResetPrompt
      else RecoveryUnavailableAlert
    case _ => HelpIgnored
  }

  /** The screen `createPasswordController` starts in. */
  datatype CreatePasswordState = PendingVerification(emailPattern: string) | Setup

  /** `setupPassword`: acts only when there is no challenge yet. */
  function SetupPassword(c: Controller): (r: Option<CreatePasswordState>)
    ensures r.Some? <==> c.state.verificationState.Some? && c.state.verificationState.value.NoChallenge?
    ensures r.Some? ==> (r.value.PendingVerification? <==> c.state.verificationState.value.emailPattern.Some?)
  {
    match c.state.verificationState
    case Some(NoChallenge(pattern)) =>
      Some(if pattern.Some? then PendingVerification(pattern.value) else Setup)
    case _ => None
  }

  /** The password-reset flow completed: back to no challenge, then password setup starts afresh. */
  function RecoveryCompleted(c: Controller): (r: (Controller, Option<CreatePasswordState>))
    ensures InSync(c) ==> InSync(r.0)
    ensures r.0.state == c.state.(verificationState := Some(NoChallenge(None)))
    ensures r.1 == Some(Setup)
  {
    var next := UpdateState(c, WithVerification(c.state, NoChallenge(None)));
    (next, SetupPassword(next))
  }

  /** A new e-mail confirmation pattern is recorded only while there is still no challenge. */
  function EmailConfirmationUpdated(c: Controller, pattern: Option<string>): (r: Controller)
    ensures InSync(c) ==> InSync(r)
    ensures !(c.state.verificationState.Some? && c.state.verificationState.value.NoChallenge?) ==> r == c
    ensures c.state.verificationState.Some? && c.state.verificationState.value.NoChallenge? ==>
      r.state == c.state.(verificationState := Some(NoChallenge(pattern)))
  {
    match c.state.verificationState
    case Some(NoChallenge(_)) => UpdateState(c, WithVerification(c.state, NoChallenge(pattern)))
    case _ => c
  }

  /** A password was created: the new challenge is installed and checked at once with it. */
  function PasswordCreated(c: Controller, hint: string, hasRecoveryEmail: bool): (r: (Controller, bool))
    ensures InSync(c) ==> InSync(r.0)
    ensures r.1
    ensures r.0.state == c.state.(verificationState := Some(PasswordChallenge(hint, Checking, hasRecoveryEmail)))
  {
    var installed := UpdateState(c, WithVerification(c.state, PasswordChallenge(hint, Idle, hasRecoveryEmail)));
    CheckPassword(installed)
  }
}

=== FILE: secure_id_url.dfy ===
/**
 * The Telegram Passport callback URL: where the app sends the user back to
 * the requesting bot with the outcome of an authorization request.
 */
module SecureIdUrl {
  import opened Wrappers
  import opened Text

  /** `SecureIdRequestResult` and its raw values. */
  datatype RequestResult = Success | Cancel | Error

  function RawValue(r: RequestResult): string {
    match r
    case Success => "success"
    case Cancel => "cancel"
    case Error => "error"
  }

  function ParseRequestResult(raw: string): Option<RequestResult> {
    if raw == "success" then Some(Success)
    else if raw == "cancel" then Some(Cancel)
    else if raw == "error" then Some(Error)
    else None
  }

  /** Raw values are distinct and read back to the result they came from. */
  lemma RawValueRoundTrip(r: RequestResult)
    ensures ParseRequestResult(RawValue(r)) == Some(r)
  {
  }

  /**
   * The parameters in the order the dictionary yields them; Swift leaves that
   * order unspecified, so any order of the entries is a possible input.
   */
  type Parameters = seq<(string, string)>

  function Pair(kv: (string, string)): string {
    kv.0 + "=" + kv.1
  }

  function Pairs(ps: Parameters): (pieces: seq<string>)
    ensures |pieces| == |ps|
    ensures forall i :: 0 <= i < |ps| ==> pieces[i] == Pair(ps[i])
  {
    seq(|ps|, i requires 0 <= i < |ps| => Pair(ps[i]))
  }

  /** The `key=value` pairs joined by `&`, prefixed by `?` unless that yields nothing. */
  function Query(ps: Parameters): (q: string)
    ensures ps == [] <==> q == ""
    ensures ps != [] ==> q[0] == '?'
  {
    var joined := Join(Pairs(ps), "&");
    if joined != "" then "?" + joined
    else
      assert ps == [] by {
        if ps != [] {
          assert |Pairs(ps)| > 0;
          JoinNonEmpty(Pairs(ps), "&");
        }
      }
      ""
  }

  lemma JoinNonEmpty(pieces: seq<string>, sep: string)
    requires |pieces| > 0 && '=' in pieces[0]
    ensures Join(pieces, sep) != ""
  {
    if |pieces| > 1 {
      assert Join(pieces, sep) == pieces[0] + sep + Join(pieces[1..], sep);
    }
  }

  /** A parameter survives the trip through the query unescaped only if neither part contains `&` or `=`. */
  predicate Plain(kv: (string, string)) {
    '&' !in kv.0 && '=' !in kv.0 && '&' !in kv.1 && '=' !in kv.1
  }

  predicate AllPlain(ps: Parameters) {
    forall i :: 0 <= i < |ps| ==> Plain(ps[i])
  }

  /** Reads one `key=value` piece back. */
  function ParsePair(piece: string): Option<(string, string)> {
    var halves := Split(piece, '=');
    if |halves| == 2 then Some((halves[0], halves[1])) else None
  }

  function ParsePairs(pieces: seq<string>): Option<Parameters>
    decreases |pieces|
  {
    if |pieces| == 0 then Some([])
    else match (ParsePair(pieces[0]), ParsePairs(pieces[1..]))
      case (Some(kv), Some(rest)) => Some([kv] + rest)
      case _ => None
  }

  /** Reads a query (as produced by `Query`) back into its parameters. */
  function ParseQuery(q: string): Option<Parameters> {
    if q == "" then Some([])
    else if q[0] != '?' then None
    else ParsePairs(Split(q[1..], '&'))
  }

  /** Reads `<raw value><query>` back into the result and parameters. */
  function ParseOutcome(s: string): Option<(RequestResult, Parameters)> {
    var cut := if '?' in s then IndexOf(s, '?') else |s|;
    match (ParseRequestResult(s[..cut]), ParseQuery(s[cut..]))
    case (Some(r), Some(ps)) => Some((r, ps))
    case _ => None
  }

  function IndexOf(s: string, c: char): (i: nat)
    requires c in s
    ensures i < |s| && s[i] == c && c !in s[..i]
  {
    if s[0] == c then 0
    else
      assert c in s[1..];
      var j := IndexOf(s[1..], c);
      assert s[..j + 1] == [s[0]] + s[1..][..j];
      j + 1
  }

  lemma PairRoundTrip(kv: (string, string))
    requires Plain(kv)
    ensures ParsePair(Pair(kv)) == Some(kv)
    ensures '&' !in Pair(kv)
  {
    SplitJoin([kv.0, kv.1], '=');
    assert Join([kv.0, kv.1], "=") == Pair(kv);
  }

  lemma {:induction false} PairsRoundTrip(ps: Parameters)
    requires AllPlain(ps)
    ensures ParsePairs(Pairs(ps)) == Some(ps)
    decreases |ps|
  {
    if |ps| > 0 {
      PairRoundTrip(ps[0]);
      assert Pairs(ps)[1..] == Pairs(ps[1..]);
      PairsRoundTrip(ps[1..]);
      assert [ps[0]] + ps[1..] == ps;
    }
  }

  /** Without escaping, plain parameters are recovered from the query exactly, in order. */
  lemma QueryRoundTrip(ps: Parameters)
    requires AllPlain(ps)
    ensures ParseQuery(Query(ps)) == Some(ps)
  {
    if ps != [] {
      var pieces := Pairs(ps);
      forall i | 0 <= i < |pieces|
        ensures '&' !in pieces[i]
      {
        PairRoundTrip(ps[i]);
      }
      SplitJoin(pieces, '&');
      PairsRoundTrip(ps);
      assert Query(ps)[1..] == Join(pieces, "&");
    }
  }

  /** The result and the plain parameters are recovered from what follows the URL's fixed head. */
  lemma {:induction false} OutcomeRoundTrip(result: RequestResult, ps: Parameters)
    requires AllPlain(ps)
    ensures ParseOutcome(RawValue(result) + Query(ps)) == Some((result, ps))
  {
    var raw := RawValue(result);
    var s := raw + Query(ps);
    assert '?' !in raw;
    QueryRoundTrip(ps);
    if ps == [] {
      assert s == raw;
      assert s[..|s|] == raw && s[|s|..] == "";
    } else {
      assert s[|raw|] == '?';
      assert '?' in s;
      var cut := IndexOf(s, '?');
      assert s[..|raw|] == raw;
      assert forall i :: 0 <= i < |raw| ==> s[i] == raw[i];
      assert cut >= |raw|;
      assert cut <= |raw|;
      assert s[cut..] == Query(ps);
    }
    RawValueRoundTrip(result);
  }

  predicate HasSuffix(s: string, suffix: string) {
    |suffix| <= |s| && s[|s| - |suffix|..] == suffix
  }

  /**
   * `secureIdCallbackUrl`: a `tgbot…` base is replaced by the bot's own
   * scheme `tgbot<peer id>://passport/`; any other base gets
   * `tg_passport=<result>` appended with `&` if it already has a query and
   * `?` otherwise. The parameters follow as a query of their own.
   */
  function CallbackUrl(baseUrl: string, peerId: int, result: RequestResult, ps: Parameters): (url: string)
    ensures HasPrefix(baseUrl, "tgbot") ==> HasPrefix(url, "tgbot" + IntToString(peerId) + "://passport/")
    ensures !HasPrefix(baseUrl, "tgbot") ==>
      && HasPrefix(url, baseUrl)
      && |url| > |baseUrl|
      && url[|baseUrl|] == (if '?' in baseUrl then '&' else '?')
      && HasPrefix(url[|baseUrl| + 1..], "tg_passport=")
    ensures ps == [] ==> HasSuffix(url, RawValue(result))
  {
    var outcome := RawValue(result) + Query(ps);
    if HasPrefix(baseUrl, "tgbot") then
      var head := "tgbot" + IntToString(peerId) + "://passport/";
      assert (head + outcome)[..|head|] == head;
      head + outcome
    else
      var head := baseUrl + (if '?' in baseUrl then "&" else "?") + "tg_passport=";
      assert (head + outcome)[..|baseUrl|] == baseUrl;
      assert (head + outcome)[|baseUrl| + 1..][..12] == "tg_passport=";
      head + outcome
  }

  /** The fixed part of a callback URL that precedes `<result><query>`. */
  function CallbackHead(baseUrl: string, peerId: int): string {
    if HasPrefix(baseUrl, "tgbot") then "tgbot" + IntToString(peerId) + "://passport/"
    else baseUrl + (if '?' in baseUrl then "&" else "?") + "tg_passport="
  }

  /** Reads a callback URL back, knowing the base URL and peer it was built for. */
  function ReadCallbackUrl(baseUrl: string, peerId: int, url: string): Option<(RequestResult, Parameters)> {
    var head := CallbackHead(baseUrl, peerId);
    if HasPrefix(url, head) then ParseOutcome(url[|head|..]) else None
  }

  /** The bot learns the result and every plain parameter back from the URL. */
  lemma CallbackUrlRoundTrip(baseUrl: string, peerId: int, result: RequestResult, ps: Parameters)
    requires AllPlain(ps)
    ensures ReadCallbackUrl(baseUrl, peerId, CallbackUrl(baseUrl, peerId, result, ps)) == Some((result, ps))
  {
    var head := CallbackHead(baseUrl, peerId);
    var outcome := RawValue(result) + Query(ps);
    assert CallbackUrl(baseUrl, peerId, result, ps) == head + outcome;
    assert (head + outcome)[..|head|] == head;
    assert (head + outcome)[|head|..] == outcome;
    OutcomeRoundTrip(result, ps);
  }

  /** For a `tgbot` base only the prefix matters: the rest of the base URL is ignored. */
  lemma BotSchemeIgnoresBase(base1: string, base2: string, peerId: int, result: RequestResult, ps: Parameters)
    requires HasPrefix(base1, "tgbot") && HasPrefix(base2, "tgbot")
    ensures CallbackUrl(base1, peerId, result, ps) == CallbackUrl(base2, peerId, result, ps)
  {
  }

  /** The error callback: `["error": code]` as its only parameter. */
  function ErrorCallbackUrl(baseUrl: string, peerId: int, code: string): string {
    CallbackUrl(baseUrl, peerId, Error, [("error", code)])
  }

  /** A plain error code reaches the bot intact. */
  lemma ErrorCallbackCarriesCode(baseUrl: string, peerId: int, code: string)
    requires '&' !in code && '=' !in code
    ensures ReadCallbackUrl(baseUrl, peerId, ErrorCallbackUrl(baseUrl, peerId, code)) == Some((Error, [("error", code)]))
  {
    CallbackUrlRoundTrip(baseUrl, peerId, Error, [("error", code)]);
  }
}

=== FILE: text.dfy ===
/** String helpers shared by the models: joining, splitting and decimal rendering. */
module Text {

  /** Swift's `Array<String>.joined(separator:)`. */
  function Join(parts: seq<string>, sep: string): string
    decreases |parts|
  {
    if |parts| == 0 then ""
    else if |parts| == 1 then parts[0]
    else parts[0] + sep + Join(parts[1..], sep)
  }

  /** Splits `s` at every occurrence of `sep`; the result always has at least one piece. */
  function Split(s: string, sep: char): (pieces: seq<string>)
    ensures |pieces| >= 1
    decreases |s|
  {
    if |s| == 0 then [""]
    else
      var rest := Split(s[1..], sep);
      if s[0] == sep then [""] + rest
      else [[s[0]] + rest[0]] + rest[1..]
  }

  /** A piece without the separator is glued onto the first piece of what follows it. */
  lemma {:induction false} SplitPrefix(a: string, t: string, sep: char)
    requires sep !in a
    ensures Split(a + t, sep) == [a + Split(t, sep)[0]] + Split(t, sep)[1..]
    decreases |a|
  {
    if |a| == 0 {
      assert a + t == t;
      assert a + Split(t, sep)[0] == Split(t, sep)[0];
      assert Split(t, sep) == [Split(t, sep)[0]] + Split(t, sep)[1..];
    } else {
      assert (a + t)[1..] == a[1..] + t;
      SplitPrefix(a[1..], t, sep);
      assert [a[0]] + (a[1..] + Split(t, sep)[0]) == a + Split(t, sep)[0];
    }
  }

  /** Splitting undoes joining with a one-character separator no piece contains. */
  lemma {:induction false} SplitJoin(parts: seq<string>, sep: char)
    requires |parts| >= 1
    requires forall i :: 0 <= i < |parts| ==> sep !in parts[i]
    ensures Split(Join(parts, [sep]), sep) == parts
    decreases |parts|
  {
    if |parts| == 1 {
      SplitPrefix(parts[0], "", sep);
      assert parts[0] + "" == parts[0];
    } else {
      var tail := Join(parts[1..], [sep]);
      SplitJoin(parts[1..], sep);
      assert Join(parts, [sep]) == parts[0] + ([sep] + tail);
      SplitPrefix(parts[0], [sep] + tail, sep);
      assert ([sep] + tail)[1..] == tail;
      assert Split([sep] + tail, sep) == [""] + parts[1..];
      assert parts[0] + "" == parts[0];
    }
  }

  /** A joined string contains the separator character only if some piece or the separator does. */
  lemma {:induction false} JoinAvoids(parts: seq<string>, sep: string, c: char)
    requires c !in sep
    requires forall i :: 0 <= i < |parts| ==> c !in parts[i]
    ensures c !in Join(parts, sep)
    decreases |parts|
  {
    if |parts| > 1 {
      JoinAvoids(parts[1..], sep, c);
    }
  }

  /** The last decimal digit of `d`. */
  function DigitChar(d: nat): (c: char)
    requires d < 10
    ensures '0' <= c <= '9'
  {
    "0123456789"[d]
  }

  /** Decimal rendering of a natural number, as Swift's string interpolation prints it. */
  function NatToString(n: nat): (s: string)
    ensures |s| >= 1
    ensures forall i :: 0 <= i < |s| ==> '0' <= s[i] <= '9'
    decreases n
  {
    if n < 10 then [DigitChar(n)] else NatToString(n / 10) + [DigitChar(n % 10)]
  }

  /** Decimal rendering of an integer, with a leading `-` for negative values. */
  function IntToString(n: int): (s: string)
    ensures |s| >= 1
    ensures '?' !in s && '/' !in s
  {
    if n >= 0 then NatToString(n) else "-" + NatToString(-n)
  }

  predicate HasPrefix(s: string, prefix: string) {
    |prefix| <= |s| && s[..|prefix|] == prefix
  }
}

=== FILE: wallet_receive.dfy ===
/**
 * The wallet's receive screen: its two modes, the URL each one shares, the
 * way an invoice URL is broken into 32-character lines for display, and the
 * navigation-stack cleanup behind its Done button.
 *
 * `walletInvoiceUrl` and `formatAddress` are parameters.
 */
module WalletReceive {
  import opened Wrappers
  import opened Text

  /** `WalletReceiveScreenMode`. */
  datatype Mode =
    | Receive(receiveAddress: string)
    | Invoice(invoiceAddress: string, amount: Option<string>, comment: Option<string>)

  /** `mode.address`: the stored address, whichever the mode. */
  function Address(m: Mode): (a: string)
    ensures m.Receive? ==> a == m.receiveAddress
    ensures m.Invoice? ==> a == m.invoiceAddress
  {
    match m
    case Receive(address) => address
    case Invoice(address, _, _) => address
  }

  /** `walletInvoiceUrl(address:amount:comment:)`, whose defaults are no amount and no comment. */
  type InvoiceUrl = (string, Option<string>, Option<string>) -> string

  /** `urlForMode`. */
  function UrlForMode(m: Mode, invoiceUrl: InvoiceUrl): (url: string)
    ensures m.Invoice? ==> url == invoiceUrl(m.invoiceAddress, m.amount, m.comment)
  {
    match m
    case Receive(address) => invoiceUrl(address, None, None)
    case Invoice(address, amount, comment) => invoiceUrl(address, amount, comment)
  }

  /** A receive-mode URL is the invoice URL for the same address with neither amount nor comment. */
  lemma ReceiveIsBareInvoice(address: string, invoiceUrl: InvoiceUrl)
    ensures UrlForMode(Receive(address), invoiceUrl) == UrlForMode(Invoice(address, None, None), invoiceUrl)
    ensures Address(Receive(address)) == Address(Invoice(address, None, None))
  {
  }

  // ---------------------------------------------------------------- slicing

  const LineLength := 32

  /** The characters emitted for the character at index `i`: a newline goes first at every positive multiple of 32. */
  function Piece(c: char, i: int): string {
    if i > 0 && i % LineLength == 0 then ['\n', c] else [c]
  }

  /** The pieces of `s`, with indices counted from `offset`. */
  function Pieces(s: string, offset: nat): (ps: seq<string>)
    ensures |ps| == |s|
    ensures forall i :: 0 <= i < |s| ==> ps[i] == Piece(s[i], offset + i)
  {
    seq(|s|, i requires 0 <= i < |s| => Piece(s[i], offset + i))
  }

  function Flatten(ps: seq<string>): string
    decreases |ps|
  {
    if |ps| == 0 then "" else ps[0] + Flatten(ps[1..])
  }

  /** The invoice URL as displayed: `url.enumerated().map { … }.joined()`. */
  function Slice(url: string): string {
    Flatten(Pieces(url, 0))
  }

  /** Reference form: consecutive runs of 32 characters, the last one possibly shorter. */
  function Chunks(s: string): (cs: seq<string>)
    ensures |cs| >= 1
    decreases |s|
  {
    if |s| <= LineLength then [s] else [s[..LineLength]] + Chunks(s[LineLength..])
  }

  lemma {:induction false} FlattenAppend(a: seq<string>, b: seq<string>)
    ensures Flatten(a + b) == Flatten(a) + Flatten(b)
    decreases |a|
  {
    if |a| == 0 {
      assert a + b == b;
    } else {
      assert (a + b)[1..] == a[1..] + b;
      FlattenAppend(a[1..], b);
    }
  }

  lemma {:induction false} FlattenSingles(ps: seq<string>, s: string)
    requires |ps| == |s|
    requires forall i :: 0 <= i < |s| ==> ps[i] == [s[i]]
    ensures Flatten(ps) == s
    decreases |s|
  {
    if |s| > 0 {
      FlattenSingles(ps[1..], s[1..]);
      assert [s[0]] + s[1..] == s;
    }
  }

  /** Within one line no newline is emitted. */
  lemma FirstLine(s: string)
    requires |s| <= LineLength
    ensures Flatten(Pieces(s, 0)) == s
  {
    FlattenSingles(Pieces(s, 0), s);
  }

  /** Past the first line, the pieces are the first line's pieces restarted at 0, with one newline in front. */
  lemma Restart(s: string)
    requires |s| > 0
    ensures Flatten(Pieces(s, LineLength)) == "\n" + Flatten(Pieces(s, 0))
  {
    var a := Pieces(s, LineLength);
    var b := Pieces(s, 0);
    assert a[1..] == b[1..] by {
      forall i | 1 <= i < |s|
        ensures a[i] == b[i]
      {
        assert (LineLength + i) % LineLength == i % LineLength;
      }
    }
    assert a[0] == ['\n', s[0]];
    assert b[0] == [s[0]];
  }

  /** The sliced URL is its 32-character chunks joined by newlines. */
  lemma {:induction false} SliceIsChunked(url: string)
    ensures Slice(url) == Join(Chunks(url), "\n")
    decreases |url|
  {
    if |url| <= LineLength {
      FirstLine(url);
    } else {
      var head := url[..LineLength];
      var rest := url[LineLength..];
      var ps := Pieces(url, 0);
      assert ps == Pieces(head, 0) + Pieces(rest, LineLength);
      FlattenAppend(Pieces(head, 0), Pieces(rest, LineLength));
      FirstLine(head);
      Restart(rest);
      SliceIsChunked(rest);
      assert Chunks(url) == [head] + Chunks(rest);
      assert Join([head] + Chunks(rest), "\n") == head + "\n" + Join(Chunks(rest), "\n") by {
        assert ([head] + Chunks(rest))[1..] == Chunks(rest);
      }
    }
  }

  /** A URL of n > 0 characters has (n - 1) / 32 + 1 lines. */
  lemma {:induction false} ChunksCount(s: string)
    requires |s| > 0
    ensures |Chunks(s)| == (|s| - 1) / LineLength + 1
    decreases |s|
  {
    if |s| > LineLength {
      ChunksCount(s[LineLength..]);
    }
  }

  /** Every line but the last is a full line of 32 characters. */
  lemma {:induction false} ChunksFull(s: string)
    ensures forall k :: 0 <= k < |Chunks(s)| - 1 ==> |Chunks(s)[k]| == LineLength
    decreases |s|
  {
    if |s| > LineLength {
      var rest := s[LineLength..];
      ChunksFull(rest);
      assert Chunks(s)[1..] == Chunks(rest);
    }
  }

  /** The last line holds between 1 and 32 characters unless the URL is empty. */
  lemma {:induction false} ChunksLast(s: string)
    requires |s| > 0
    ensures 0 < |Chunks(s)[|Chunks(s)| - 1]| <= LineLength
    decreases |s|
  {
    if |s| > LineLength {
      var rest := s[LineLength..];
      ChunksLast(rest);
      assert Chunks(s)[|Chunks(s)| - 1] == Chunks(rest)[|Chunks(rest)| - 1];
    }
  }

  /** Every line takes its characters from the URL. */
  lemma {:induction false} ChunksWithin(s: string)
    ensures forall k :: 0 <= k < |Chunks(s)| ==> multiset(Chunks(s)[k]) <= multiset(s)
    decreases |s|
  {
    if |s| > LineLength {
      var rest := s[LineLength..];
      ChunksWithin(rest);
      assert s == s[..LineLength] + rest;
      forall k | 1 <= k < |Chunks(s)|
        ensures multiset(Chunks(s)[k]) <= multiset(s)
      {
        assert Chunks(s)[k] == Chunks(rest)[k - 1];
      }
    }
  }

  lemma ChunksAvoid(s: string, c: char)
    requires c !in s
    ensures forall k :: 0 <= k < |Chunks(s)| ==> c !in Chunks(s)[k]
  {
    ChunksWithin(s);
    forall k | 0 <= k < |Chunks(s)|
      ensures c !in Chunks(s)[k]
    {
      assert multiset(Chunks(s)[k])[c] <= multiset(s)[c];
    }
  }

  /** A URL of length n > 0 gains (n - 1) / 32 characters: one newline per full line after the first. */
  lemma {:induction false} SliceLength(url: string)
    ensures |url| > 0 ==> |Slice(url)| == |url| + (|url| - 1) / LineLength
    ensures |url| == 0 ==> Slice(url) == ""
    decreases |url|
  {
    SliceIsChunked(url);
    if |url| > LineLength {
      var rest := url[LineLength..];
      SliceLength(rest);
      SliceIsChunked(rest);
      assert Join(Chunks(url), "\n") == url[..LineLength] + "\n" + Join(Chunks(rest), "\n") by {
        assert Chunks(url)[1..] == Chunks(rest);
      }
    }
  }

  /** `s` with its newlines removed. */
  function StripNewlines(s: string): (r: string)
    ensures '\n' !in r
    decreases |s|
  {
    if |s| == 0 then "" else (if s[0] == '\n' then "" else [s[0]]) + StripNewlines(s[1..])
  }

  lemma {:induction false} StripAppend(a: string, b: string)
    ensures StripNewlines(a + b) == StripNewlines(a) + StripNewlines(b)
    decreases |a|
  {
    if |a| > 0 {
      assert (a + b)[1..] == a[1..] + b;
      StripAppend(a[1..], b);
    } else {
      assert a + b == b;
    }
  }

  lemma {:induction false} StripPlain(s: string)
    requires '\n' !in s
    ensures StripNewlines(s) == s
    decreases |s|
  {
    if |s| > 0 {
      StripPlain(s[1..]);
      assert [s[0]] + s[1..] == s;
    }
  }

  /** Peeling the first line off the joined chunks. */
  lemma JoinChunksStep(s: string)
    requires |s| > LineLength
    ensures Join(Chunks(s), "\n") == s[..LineLength] + "\n" + Join(Chunks(s[LineLength..]), "\n")
  {
    assert Chunks(s)[1..] == Chunks(s[LineLength..]);
  }

  lemma {:induction false} StripChunks(s: string)
    requires '\n' !in s
    ensures StripNewlines(Join(Chunks(s), "\n")) == s
    decreases |s|
  {
    if |s| <= LineLength {
      StripPlain(s);
    } else {
      var head := s[..LineLength];
      var rest := s[LineLength..];
      var tail := Join(Chunks(rest), "\n");
      assert '\n' !in head by {
        assert forall i :: 0 <= i < |head| ==> head[i] == s[i];
      }
      calc {
        StripNewlines(Join(Chunks(s), "\n"));
        == { JoinChunksStep(s); assert head + "\n" + tail == head + ("\n" + tail); }
        StripNewlines(head + ("\n" + tail));
        == { StripAppend(head, "\n" + tail); StripAppend("\n", tail); }
        StripNewlines(head) + (StripNewlines("\n") + StripNewlines(tail));
        == { StripPlain(head); StripChunks(rest); StripOneNewline(); }
        head + ("" + rest);
        == { assert head + rest == s; }
        s;
      }
    }
  }

  lemma StripOneNewline()
    ensures StripNewlines("\n") == ""
  {
    assert "\n"[1..] == "";
  }

  /**
   * Removing the newlines from the sliced URL gives back the URL, and
   * splitting it at newlines gives back its lines.
   */
  lemma SliceRoundTrip(url: string)
    requires '\n' !in url
    ensures StripNewlines(Slice(url)) == url
    ensures Split(Slice(url), '\n') == Chunks(url)
  {
    SliceIsChunked(url);
    ChunksAvoid(url, '\n');
    SplitJoin(Chunks(url), '\n');
    StripChunks(url);
  }

  /** The example a user sees: a 40-character URL shows as a line of 32 and a line of 8. */
  lemma SliceExample()
    ensures var url := seq(40, i => 'a');
      Slice(url) == seq(32, i => 'a') + "\n" + seq(8, i => 'a')
  {
    var url := seq(40, i => 'a');
    SliceIsChunked(url);
    assert url[..32] == seq(32, i => 'a');
    assert url[32..] == seq(8, i => 'a');
    assert Chunks(url) == [seq(32, i => 'a'), seq(8, i => 'a')];
  }

  // ---------------------------------------------------------------- screen content

  datatype PrimaryButton = ShareAddress | ShareInvoiceUrl

  /** What the screen shows and does for a mode. */
  datatype Content = Content(
    urlText: string,
    primaryButton: PrimaryButton,
    hasCreateInvoiceAction: bool,
    sharedUrl: string,
    flatModal: bool)

  /**
   * The screen for a mode: receive mode shows the formatted URL (with a
   * trailing space), offers to share the address and to create an invoice,
   * and is presented as a flat modal; invoice mode shows the sliced URL and
   * offers to share it. Both share the mode's URL.
   */
  function ScreenContent(m: Mode, invoiceUrl: InvoiceUrl, formatAddress: string -> string): (c: Content)
    ensures c.hasCreateInvoiceAction <==> m.Receive?
    ensures c.flatModal <==> m.Receive?
    ensures c.sharedUrl == UrlForMode(m, invoiceUrl)
    ensures m.Receive? ==> c.primaryButton == ShareAddress && c.urlText == formatAddress(c.sharedUrl + " ")
    ensures m.Invoice? ==> c.primaryButton == ShareInvoiceUrl
  {
    var url := UrlForMode(m, invoiceUrl);
    match m
    case Receive(_) => Content(formatAddress(url + " "), ShareAddress, true, url, true)
    case Invoice(_, _, _) => Content(Slice(url), ShareInvoiceUrl, false, url, false)
  }

  /** In invoice mode the displayed text is exactly the shared URL once its line breaks are removed. */
  lemma InvoiceTextIsSharedUrl(m: Mode, invoiceUrl: InvoiceUrl, formatAddress: string -> string)
    requires m.Invoice?
    requires '\n' !in UrlForMode(m, invoiceUrl)
    ensures StripNewlines(ScreenContent(m, invoiceUrl, formatAddress).urlText) == ScreenContent(m, invoiceUrl, formatAddress).sharedUrl
  {
    SliceRoundTrip(UrlForMode(m, invoiceUrl));
  }

  /** `openCreateInvoice`: the invoice screen is opened for the mode's address. */
  function CreateInvoiceAddress(m: Mode): (a: Option<string>)
    ensures a.Some? <==> m.Receive?
    ensures a.Some? ==> a.value == Address(m)
  {
    if m.Receive? then Some(Address(m)) else None
  }

  // ---------------------------------------------------------------- navigation

  /** The navigation stack's controllers, as far as `donePressed` distinguishes them. */
  datatype Screen = ReceiveScreen | CreateInvoiceScreen | OtherScreen(id: int)

  predicate Kept(c: Screen) {
    c.OtherScreen?
  }

  /** `a` is `b` with some elements removed, order kept. */
  predicate IsSubsequence(a: seq<Screen>, b: seq<Screen>)
    decreases |b|
  {
    if |a| == 0 then true
    else if |b| == 0 then false
    else if a[0] == b[0] then IsSubsequence(a[1..], b[1..])
    else IsSubsequence(a, b[1..])
  }

  /** `donePressed`: every receive and create-invoice screen leaves the stack. */
  function DonePressed(stack: seq<Screen>): (r: seq<Screen>)
    ensures forall i :: 0 <= i < |r| ==> Kept(r[i])
    ensures IsSubsequence(r, stack)
    ensures forall c :: Kept(c) ==> multiset(r)[c] == multiset(stack)[c]
    ensures |r| <= |stack|
    decreases |stack|
  {
    if |stack| == 0 then []
    else
      var rest := DonePressed(stack[1..]);
      assert stack == [stack[0]] + stack[1..];
      if Kept(stack[0]) then [stack[0]] + rest else rest
  }

  /** A stack without receive or create-invoice screens is left alone, so a second press changes nothing. */
  lemma {:induction false} DonePressedKeepsClean(stack: seq<Screen>)
    requires forall i :: 0 <= i < |stack| ==> Kept(stack[i])
    ensures DonePressed(stack) == stack
    decreases |stack|
  {
    if |stack| > 0 {
      DonePressedKeepsClean(stack[1..]);
      assert [stack[0]] + stack[1..] == stack;
    }
  }

  lemma DonePressedIdempotent(stack: seq<Screen>)
    ensures DonePressed(DonePressed(stack)) == DonePressed(stack)
  {
    DonePressedKeepsClean(DonePressed(stack));
  }
}

=== FILE: wallet_transaction.dfy ===
/**
 * The wallet's transaction details screen, reduced to what it derives from
 * a transaction: the counterparty address text, the comment, the direction,
 * the amount, the fee line and the address offered as a send target.
 *
 * `formatAddress`, `formatBalanceText`, UTF-8 decoding and localized
 * strings are parameters.
 */
module WalletTransaction {
  import opened Wrappers
  import opened Text

  type Byte = b: int | 0 <= b < 256

  datatype InMessage = InMessage(source: string, textMessage: string)
  datatype OutMessage = OutMessage(destination: string, textMessage: string)

  datatype CompletedTransaction = CompletedTransaction(
    timestamp: int,
    transferredValueWithoutFees: int,
    storageFee: int,
    otherFee: int,
    inMessage: Option<InMessage>,
    outMessages: seq<OutMessage>)

  datatype PendingTransaction = PendingTransaction(timestamp: int, address: string, value: int, comment: seq<Byte>)

  /** `WalletInfoTransaction`. */
  datatype Transaction = Completed(completed: CompletedTransaction) | Pending(pending: PendingTransaction)

  /** `WalletTransactionAddress`. */
  datatype TransactionAddress = AddressList(addresses: seq<string>) | NoAddress | UnknownAddress

  // ---------------------------------------------------------------- direction and amount

  /** The value the screen works with: a pending transaction is always money going out. */
  function TransferredValue(t: Transaction): (v: int)
    ensures t.Pending? ==> v == -t.pending.value
  {
    match t
    case Completed(c) => c.transferredValueWithoutFees
    case Pending(p) => -p.value
  }

  predicate IsIncoming(t: Transaction) {
    TransferredValue(t) > 0
  }

  /** The amount shown: the transferred value without its sign. */
  function DisplayedAmount(t: Transaction): (a: int)
    ensures a >= 0
    ensures a == TransferredValue(t) || a == -TransferredValue(t)
  {
    var v := TransferredValue(t);
    if v <= 0 then -v else v
  }

  /** Direction and displayed amount together determine the transferred value. */
  lemma AmountAndDirectionRecoverValue(t: Transaction)
    ensures (if IsIncoming(t) then DisplayedAmount(t) else -DisplayedAmount(t)) == TransferredValue(t)
  {
  }

  /** A pending transaction is never shown as incoming unless its value is negative. */
  lemma PendingIsOutgoing(p: PendingTransaction)
    ensures IsIncoming(Pending(p)) <==> p.value < 0
  {
  }

  // ---------------------------------------------------------------- address

  function Destinations(ms: seq<OutMessage>): (ds: seq<string>)
    ensures |ds| == |ms|
    ensures forall i :: 0 <= i < |ms| ==> ds[i] == ms[i].destination
  {
    seq(|ms|, i requires 0 <= i < |ms| => ms[i].destination)
  }

  /**
   * `extractAddress`: outgoing completed transactions list their out-message
   * destinations in order (or have none), incoming ones name the in-message
   * source (or are unknown), pending ones name their destination.
   */
  function ExtractAddress(t: Transaction): (a: TransactionAddress)
    ensures a.NoAddress? <==> t.Completed? && !IsIncoming(t) && t.completed.outMessages == []
    ensures a.UnknownAddress? <==> t.Completed? && IsIncoming(t) && t.completed.inMessage.None?
    ensures a.AddressList? && t.Completed? && !IsIncoming(t) ==> a.addresses == Destinations(t.completed.outMessages)
    ensures a.AddressList? && t.Completed? && IsIncoming(t) ==> a.addresses == [t.completed.inMessage.value.source]
    ensures t.Pending? ==> a == AddressList([t.pending.address])
  {
    match t
    case Completed(c) =>
      if c.transferredValueWithoutFees <= 0 then
        if c.outMessages == [] then NoAddress else AddressList(Destinations(c.outMessages))
      else
        if c.inMessage.Some? then AddressList([c.inMessage.value.source]) else UnknownAddress
    case Pending(p) => AddressList([p.address])
  }

  /** Interleaves `""` between the pieces: the lines of a text joined by blank lines. */
  function Spaced(parts: seq<string>): (lines: seq<string>)
    ensures |parts| > 0 ==> |lines| == 2 * |parts| - 1
    decreases |parts|
  {
    if |parts| <= 1 then parts else [parts[0], ""] + Spaced(parts[1..])
  }

  /** Every other line, starting with the first. */
  function EvenLines(lines: seq<string>): seq<string>
    decreases |lines|
  {
    if |lines| <= 2 then (if |lines| == 0 then [] else [lines[0]]) else [lines[0]] + EvenLines(lines[2..])
  }

  lemma {:induction false} JoinSpaced(parts: seq<string>)
    ensures Join(parts, "\n\n") == Join(Spaced(parts), "\n")
    ensures EvenLines(Spaced(parts)) == parts
    decreases |parts|
  {
    if |parts| > 1 {
      JoinSpaced(parts[1..]);
      var rest := Spaced(parts[1..]);
      assert Spaced(parts) == [parts[0], ""] + rest;
      assert ([parts[0], ""] + rest)[1..] == [""] + rest;
      assert ([""] + rest)[1..] == rest;
      assert Join([""] + rest, "\n") == "" + "\n" + Join(rest, "\n");
      assert ([parts[0], ""] + rest)[2..] == rest;
      assert [parts[0]] + parts[1..] == parts;
    }
  }

  function FormatAll(addresses: seq<string>, formatAddress: string -> string): (fs: seq<string>)
    ensures |fs| == |addresses|
    ensures forall i :: 0 <= i < |addresses| ==> fs[i] == formatAddress(addresses[i])
  {
    seq(|addresses|, i requires 0 <= i < |addresses| => formatAddress(addresses[i]))
  }

  /** `stringForAddress`: formatted addresses separated by blank lines, or a placeholder. */
  function StringForAddress(a: TransactionAddress, noAddressText: string, formatAddress: string -> string): (s: string)
    ensures a.NoAddress? ==> s == noAddressText
    ensures a.UnknownAddress? ==> s == "<unknown>"
    ensures a.AddressList? && |a.addresses| == 1 ==> s == formatAddress(a.addresses[0])
    ensures a.AddressList? ==> s == Join(Spaced(FormatAll(a.addresses, formatAddress)), "\n")
  {
    match a
    case AddressList(addresses) =>
      JoinSpaced(FormatAll(addresses, formatAddress));
      Join(FormatAll(addresses, formatAddress), "\n\n")
    case NoAddress => noAddressText
    case UnknownAddress => "<unknown>"
  }

  /**
   * When no formatted address spans lines, the shown text splits into the
   * formatted addresses with one blank line between neighbours, so every
   * address is read back from it, in order.
   */
  lemma AddressTextRoundTrip(addresses: seq<string>, noAddressText: string, formatAddress: string -> string)
    requires |addresses| > 0
    requires forall i :: 0 <= i < |addresses| ==> '\n' !in formatAddress(addresses[i])
    ensures Split(StringForAddress(AddressList(addresses), noAddressText, formatAddress), '\n')
      == Spaced(FormatAll(addresses, formatAddress))
    ensures EvenLines(Split(StringForAddress(AddressList(addresses), noAddressText, formatAddress), '\n'))
      == FormatAll(addresses, formatAddress)
  {
    var fs := FormatAll(addresses, formatAddress);
    JoinSpaced(fs);
    SpacedAvoids(fs);
    SplitJoin(Spaced(fs), '\n');
  }

  lemma {:induction false} SpacedAvoids(parts: seq<string>)
    requires forall i :: 0 <= i < |parts| ==> '\n' !in parts[i]
    ensures forall i :: 0 <= i < |Spaced(parts)| ==> '\n' !in Spaced(parts)[i]
    ensures |parts| > 0 ==> |Spaced(parts)| > 0
    decreases |parts|
  {
    if |parts| > 1 {
      SpacedAvoids(parts[1..]);
    }
  }

  /** The address offered as a send target: present exactly when the address is a list of one. */
  function SingleAddress(a: TransactionAddress): (r: Option<string>)
    ensures r.Some? <==> a.AddressList? && |a.addresses| == 1
    ensures r.Some? ==> r.value == a.addresses[0]
  {
    if a.AddressList? && |a.addresses| == 1 then Some(a.addresses[0]) else None
  }

  /** Which transactions offer a send target, and which address it is. */
  lemma SendTarget(t: Transaction)
    ensures t.Pending? ==> SingleAddress(ExtractAddress(t)) == Some(t.pending.address)
    ensures t.Completed? && IsIncoming(t) ==>
      SingleAddress(ExtractAddress(t)) == (if t.completed.inMessage.Some? then Some(t.completed.inMessage.value.source) else None)
    ensures t.Completed? && !IsIncoming(t) ==>
      (SingleAddress(ExtractAddress(t)).Some? <==> |t.completed.outMessages| == 1)
    ensures t.Completed? && !IsIncoming(t) && |t.completed.outMessages| == 1 ==>
      SingleAddress(ExtractAddress(t)) == Some(t.completed.outMessages[0].destination)
  {
  }

  // ---------------------------------------------------------------- description

  /** The texts before the first non-empty one are dropped. */
  function DropLeadingEmpty(texts: seq<string>): (r: seq<string>)
    ensures r != [] ==> r[0] != ""
    decreases |texts|
  {
    if |texts| == 0 then [] else if texts[0] == "" then DropLeadingEmpty(texts[1..]) else texts
  }

  /** Reference form of the outgoing comment: the texts from the first non-empty one on, separated by blank lines. */
  function OutgoingText(texts: seq<string>): string {
    Join(DropLeadingEmpty(texts), "\n\n")
  }

  lemma JoinAppend(xs: seq<string>, y: string, sep: string)
    ensures Join(xs + [y], sep) == if xs == [] then y else Join(xs, sep) + sep + y
    decreases |xs|
  {
    if |xs| > 1 {
      assert (xs + [y])[1..] == xs[1..] + [y];
      JoinAppend(xs[1..], y, sep);
    } else if |xs| == 1 {
      assert xs + [y] == [xs[0], y];
    }
  }

  lemma {:induction false} DropLeadingEmptyAppend(xs: seq<string>, y: string)
    ensures DropLeadingEmpty(xs + [y]) ==
      if DropLeadingEmpty(xs) == [] then (if y == "" then [] else [y]) else DropLeadingEmpty(xs) + [y]
    decreases |xs|
  {
    if |xs| == 0 {
      assert xs + [y] == [y];
      assert DropLeadingEmpty([y]) == (if y == "" then DropLeadingEmpty([]) else [y]) by {
        assert [y][1..] == [];
      }
    } else {
      assert (xs + [y])[1..] == xs[1..] + [y];
      assert (xs + [y])[0] == xs[0];
      if xs[0] == "" {
        DropLeadingEmptyAppend(xs[1..], y);
      }
    }
  }

  /** One loop step: a separator only once something non-empty has been written. */
  lemma OutgoingTextStep(texts: seq<string>, y: string)
    ensures OutgoingText(texts + [y]) ==
      (if OutgoingText(texts) != "" then OutgoingText(texts) + "\n\n" else OutgoingText(texts)) + y
  {
    var d := DropLeadingEmpty(texts);
    DropLeadingEmptyAppend(texts, y);
    if d == [] {
      assert OutgoingText(texts) == "";
      if y != "" {
        assert Join([y], "\n\n") == y;
      }
    } else {
      JoinAppend(d, y, "\n\n");
      JoinStartsWith(d, "\n\n");
    }
  }

  lemma JoinStartsWith(xs: seq<string>, sep: string)
    requires xs != [] && xs[0] != ""
    ensures Join(xs, sep) != ""
  {
    if |xs| > 1 {
      assert Join(xs, sep) == xs[0] + sep + Join(xs[1..], sep);
    }
  }

  function Texts(ms: seq<OutMessage>): (ts: seq<string>)
    ensures |ts| == |ms|
    ensures forall i :: 0 <= i < |ms| ==> ts[i] == ms[i].textMessage
  {
    seq(|ms|, i requires 0 <= i < |ms| => ms[i].textMessage)
  }

  /** The loop of `extractDescription` over an outgoing transaction's out-messages. */
  method DescribeOutgoing(messages: seq<OutMessage>) returns (text: string)
    ensures text == OutgoingText(Texts(messages))
    ensures text == "" <==> forall i :: 0 <= i < |messages| ==> messages[i].textMessage == ""
  {
    text := "";
    var i := 0;
    while i < |messages|
      invariant 0 <= i <= |messages|
      invariant text == OutgoingText(Texts(messages)[..i])
    {
      if text != "" {
        text := text + "\n\n";
      }
      text := text + messages[i].textMessage;
      assert Texts(messages)[..i + 1] == Texts(messages)[..i] + [messages[i].textMessage];
      OutgoingTextStep(Texts(messages)[..i], messages[i].textMessage);
      i := i + 1;
    }
    assert Texts(messages)[..i] == Texts(messages);
    OutgoingTextEmpty(Texts(messages));
  }

  lemma {:induction false} OutgoingTextEmpty(texts: seq<string>)
    ensures OutgoingText(texts) == "" <==> forall i :: 0 <= i < |texts| ==> texts[i] == ""
    decreases |texts|
  {
    if |texts| > 0 {
      if texts[0] == "" {
        OutgoingTextEmpty(texts[1..]);
        assert forall i :: 1 <= i < |texts| ==> texts[i] == texts[1..][i - 1];
      } else {
        JoinStartsWith(texts, "\n\n");
      }
    }
  }

  /**
   * `extractDescription`: the joined out-message texts when outgoing, the
   * in-message text (or nothing) when incoming, and the pending comment
   * decoded as UTF-8 (or nothing when it is not valid UTF-8).
   */
  method ExtractDescription(t: Transaction, decodeUtf8: seq<Byte> -> Option<string>) returns (text: string)
    ensures t.Completed? && !IsIncoming(t) ==> text == OutgoingText(Texts(t.completed.outMessages))
    ensures t.Completed? && IsIncoming(t) ==>
      text == (if t.completed.inMessage.Some? then t.completed.inMessage.value.textMessage else "")
    ensures t.Pending? ==> text == decodeUtf8(t.pending.comment).GetOr("")
  {
    match t
    case Completed(c) =>
      if c.transferredValueWithoutFees <= 0 {
        text := DescribeOutgoing(c.outMessages);
      } else {
        text := if c.inMessage.Some? then c.inMessage.value.textMessage else "";
      }
    case Pending(p) =>
      text := decodeUtf8(p.comment).GetOr("");
  }

  // ---------------------------------------------------------------- fees

  function StorageFeeLine(fee: int, formatBalance: int -> string): string {
    formatBalance(fee) + " storage fee"
  }

  function TransactionFeeLine(fee: int, formatBalance: int -> string): string {
    formatBalance(fee) + " transaction fee"
  }

  /** The fee lines present: storage, then transaction, each only when its fee is nonzero. */
  function FeeLines(c: CompletedTransaction, formatBalance: int -> string): (lines: seq<string>)
    ensures |lines| == (if c.storageFee != 0 then 1 else 0) + (if c.otherFee != 0 then 1 else 0)
  {
    (if c.storageFee != 0 then [StorageFeeLine(c.storageFee, formatBalance)] else [])
    + (if c.otherFee != 0 then [TransactionFeeLine(c.otherFee, formatBalance)] else [])
  }

  /** The fee string as the screen assembles it, appending piece by piece. */
  function FeesString(t: Transaction, formatBalance: int -> string): (s: string)
    ensures t.Pending? ==> s == ""
    ensures s == "" <==> t.Pending? || (t.completed.storageFee == 0 && t.completed.otherFee == 0)
  {
    match t
    case Pending(_) => ""
    case Completed(c) =>
      var storage := if c.storageFee != 0 then StorageFeeLine(c.storageFee, formatBalance) else "";
      var both := if c.otherFee != 0 then
          (if storage != "" then storage + "\n" else storage) + TransactionFeeLine(c.otherFee, formatBalance)
        else storage;
      if both != "" then both + "(?)" else both
  }

  /** The fee string is its present lines, one per line, with `(?)` after them when there are any. */
  lemma FeesStringIsFeeLines(c: CompletedTransaction, formatBalance: int -> string)
    ensures var lines := FeeLines(c, formatBalance);
      FeesString(Completed(c), formatBalance) == Join(lines, "\n") + (if lines != [] then "(?)" else "")
  {
    var lines := FeeLines(c, formatBalance);
    if c.storageFee != 0 && c.otherFee != 0 {
      assert Join(lines, "\n") == lines[0] + "\n" + lines[1];
    }
  }
}

=== FILE: wrappers.dfy ===
/** Optional values, standing in for Swift's `T?`. */
module Wrappers {

  datatype Option<+T> = None | Some(value: T) {

    /** The wrapped value, or `default` when there is none (Swift's `??`). */
    function GetOr(default: T): T {
      match this
      case Some(v) => v
      case None => default
    }
  }
}
